=== FILE: README.md ===
# AstroAlert core in Dafny

AstroAlert is an Android app that picks the best night-sky site from a list of
observing locations and recommends deep-sky targets for it. This project
models the app's decision logic and proves properties of it:

- **Visibility engine.** It covers local sidereal time and hour angle, the
  altitude of a target, the hours until meridian transit (a transit less than
  an hour away is deferred by a day), and the flat peak-altitude formula. It
  also covers the observing window from sunset to sunrise and the hourly
  "quality hours" score.
- **Site and target selection.** It covers the linear site score and the
  first-maximum choice among the sites that produced a score. It also covers
  the month-to-seasonal-list mapping, target assembly from the fetched lists,
  and ranking: keep targets with at least one quality hour, stable
  descending sort, top five. The whole manual check is modelled as one
  method, `Selection.PerformManualCheck`.
- **Night summary and analysis fallback.** These come from the condition
  evaluator: the integer hour offsets, the selection of hourly rows, the moon
  line, and the rule that analysis always returns a value. Any failure gives
  the fixed fallback assessment.
- **Location registry.** It covers the registry and its `enabled` filter.
- **Check log.** The four `ConditionDao` queries are pure operations on a
  table value: insert-or-replace with `AUTOINCREMENT` ids, the 20 newest
  checks, the newest check per site, and deletion before a cutoff. The
  worker's seven-day cutoff is also modelled.
- **Daily scheduler.** It covers the initial delay to the next 06:00, 11:00
  and 16:00, and the unique-work `KEEP` policy.

Modelling choices:

- Kotlin `Double` is `real`. `%` on doubles is a truncated remainder
  (`Numerics.TruncRem`) and `toInt()` truncates toward zero
  (`Numerics.TruncToInt`).
- Sine, cosine and arcsine are a value `Sky.Trig` passed in by the caller.
  The only fact known about it is that arcsine in degrees lies in
  [-90, 90].
- Instants are integer epoch milliseconds. A calendar is an instant plus a
  fixed zone offset, with 86,400,000 ms days (`Clock`).
- Remote services are function parameters: sun times, forecast, sky data,
  target lists and the language model. So are the clock readings.

The model follows the code as written:

- The hour angle takes days since J2000 from the instant. It takes the time
  of day from the local calendar fields of that instant, not from UTC.
- The transit time is computed from a UTC clock reading. The minutes are
  added to a separate `currentTime`.
- The session window keeps the seconds and milliseconds of "now". Its end
  moves to the next day only when it falls strictly before the start.
- `hoursToEndOfNight` is -1 for a sunrise at 00:00 seen at 23:00
  (`Evaluator.EndOfNightBeforeNow`).
- December fetches the Fall list and then the Winter list.
- A sun time that fails to parse during target ranking ends the manual check
  without saving it (`Selection.Aborted`). During site scoring it only skips
  that site.

## Model

All paths are under `app/src/main/java/com/toddmargolis/astroalert/`. The
source cells below give that prefix in full.

| member | source | states |
|---|---|---|
| Numerics.TruncToInt | app/src/main/java/com/toddmargolis/astroalert/MainActivity.kt:382 | `toInt()` rounds toward zero: the result is within one of the input, on the side of zero |
| Numerics.TruncRem | app/src/main/java/com/toddmargolis/astroalert/MainActivity.kt:235-240 | Kotlin's `%` on doubles: the result has the dividend's sign, is smaller than the modulus in size, and leaves dividends already in (-m, m) unchanged |
| Numerics.TruncRemPeriodic | app/src/main/java/com/toddmargolis/astroalert/MainActivity.kt:235-237 | adding a whole number of moduli to a non-negative dividend leaves the truncated remainder unchanged |
| Clock.Fields | app/src/main/java/com/toddmargolis/astroalert/MainActivity.kt:231-233 | `HOUR_OF_DAY`, `MINUTE` and `SECOND` are in range and rebuild the instant together with the day start and the milliseconds |
| Clock.AtHour | app/src/main/java/com/toddmargolis/astroalert/MainActivity.kt:490-496 | setting the hour and zeroing the minute keeps the calendar day, the second and the milliseconds, and reads back as `hour`:00 |
| Clock.AtHourSharp | app/src/main/java/com/toddmargolis/astroalert/workers/WorkScheduler.kt:23-27 | setting hour, minute and second keeps the day and the milliseconds, and reads back as `hour`:00:00 |
| Clock.OnTheHour | app/src/main/java/com/toddmargolis/astroalert/workers/WorkScheduler.kt:23-32 | an instant reads `hour`:00:00 exactly when setting those fields leaves it unchanged |
| Clock.FieldsNextDay | app/src/main/java/com/toddmargolis/astroalert/workers/WorkScheduler.kt:30-32 | adding a day changes neither the clock fields nor the milliseconds |
| Sky.DaysSinceJ2000 | app/src/main/java/com/toddmargolis/astroalert/MainActivity.kt:224-228 | days since J2000.0 are non-negative for instants at or after J2000.0 |
| Sky.LocalSiderealTime | app/src/main/java/com/toddmargolis/astroalert/MainActivity.kt:228-237 | LST is within (-24, 24), and within [0, 24) after J2000 for valid fields and longitude in [-180, 180] |
| Sky.HourAngle | app/src/main/java/com/toddmargolis/astroalert/MainActivity.kt:221-241 | the hour angle lies in [0, 24) after J2000, for longitude in [-180, 180] and RA in [0, 24] |
| Sky.AltitudeAtTime | app/src/main/java/com/toddmargolis/astroalert/MainActivity.kt:243-253 | the altitude is in [-90, 90] degrees |
| Sky.HoursUntilTransit | app/src/main/java/com/toddmargolis/astroalert/MainActivity.kt:373-378 | hours until transit lie in [1, 25) for RA in [0, 24] and LST in [0, 24) |
| Sky.TransitIsFirstCrossingAfterAnHour | app/src/main/java/com/toddmargolis/astroalert/MainActivity.kt:372-378 | the deferred transit is the meridian crossing (LST reaching RA) that comes first among those at least one hour ahead |
| Sky.MinutesUntilTransit | app/src/main/java/com/toddmargolis/astroalert/MainActivity.kt:346-382 | the truncated minutes added lie in [60, 1499] |
| Sky.TransitTime | app/src/main/java/com/toddmargolis/astroalert/MainActivity.kt:340-385 | the reported transit is between one hour and 1499 minutes after `currentTime` |
| Sky.PeakAltitude | app/src/main/java/com/toddmargolis/astroalert/MainActivity.kt:387-395 | the peak altitude is at most 90, equals 90 exactly when dec equals latitude, and is at least -90 for in-range inputs |
| Sky.OrionPeakFromIndianaDunes | app/src/main/java/com/toddmargolis/astroalert/MainActivity.kt:394 | the Orion Nebula (dec 7.41) peaks at 55.75 degrees from Indiana Dunes |
| Visibility.ResolveNightWindow | app/src/main/java/com/toddmargolis/astroalert/MainActivity.kt:488-501 | the end moves a day later exactly when sunrise hour < sunset hour; end >= start, with equality exactly when the hours coincide; the length is `(sunrise - sunset) mod 24` hours; scoring starts at the later of now and the start |
| Visibility.Band | app/src/main/java/com/toddmargolis/astroalert/MainActivity.kt:518-528 | a step earns between 0 and 1, nothing exactly below 25 degrees, and the full hour exactly at 60 degrees or more |
| Visibility.BandMonotone | app/src/main/java/com/toddmargolis/astroalert/MainActivity.kt:518-528 | the bands are ordered: a higher altitude never earns less for its step |
| Visibility.QualityHours | app/src/main/java/com/toddmargolis/astroalert/MainActivity.kt:510-531 | the total lies between 0 and the number of hourly steps, and is 0 for an empty window |
| Visibility.ScoreWindow | app/src/main/java/com/toddmargolis/astroalert/MainActivity.kt:510-531 | the `while` loop with its `continue` computes the recursive quality-hours sum |
| Visibility.StepsCount | app/src/main/java/com/toddmargolis/astroalert/MainActivity.kt:513-530 | the loop runs once per started hour of the window |
| Visibility.QualityHoursMonotone | app/src/main/java/com/toddmargolis/astroalert/MainActivity.kt:510-531 | a later session end never lowers the quality hours |
| Visibility.NeverObservableScoresZero | app/src/main/java/com/toddmargolis/astroalert/MainActivity.kt:518-521 | a target below 25 degrees at every step scores 0 |
| Visibility.AlwaysHighScoresEveryStep | app/src/main/java/com/toddmargolis/astroalert/MainActivity.kt:523-524 | a target at 60 degrees or more at every step scores one hour per step |
| Catalog.SeasonListIds | app/src/main/java/com/toddmargolis/astroalert/MainActivity.kt:324-338 | one or two lists; two exactly in months 2, 5, 8 and 11; only Fall for months outside 0-11 |
| Catalog.SeasonListsFollowSeasons | app/src/main/java/com/toddmargolis/astroalert/MainActivity.kt:324-337 | a month that is not a transition month fetches only its own season's list; the first month of each season (March, June, September, December) fetches the previous season's list and then its own |
| Catalog.TransitionMonthsJoinNeighbours | app/src/main/java/com/toddmargolis/astroalert/MainActivity.kt:329-335 | a transition month's lists are the previous month's followed by the next month's, with December wrapping to January |
| Catalog.ListTargets | app/src/main/java/com/toddmargolis/astroalert/MainActivity.kt:463-483 | a failed or object-less list adds nothing; otherwise one target per object, tagged with the list id |
| Catalog.AssembleTargets | app/src/main/java/com/toddmargolis/astroalert/MainActivity.kt:457-484 | every target's id is a fetched list's id; when all fetches fail the result is empty; RA is present exactly when Dec is; every object of every list that arrived with its object array appears as a target tagged with its list id |
| Catalog.AssembleOne | app/src/main/java/com/toddmargolis/astroalert/MainActivity.kt:463-484 | one list assembles to exactly that list's targets, in object order; with AssembleAppend this fixes the whole result in list order |
| Catalog.AssembleAppend | app/src/main/java/com/toddmargolis/astroalert/MainActivity.kt:463-484 | assembly keeps the order of the lists |
| Catalog.TransitionMonthScoresBothSeasons | app/src/main/java/com/toddmargolis/astroalert/MainActivity.kt:458-484 | in a transition month the targets are those of both neighbouring months, in order |
| Locations.EnabledLocations | app/src/main/java/com/toddmargolis/astroalert/data/models/ObservingLocation.kt:16 | every enabled site is kept, and only sites that are in the registry and enabled |
| Locations.EnabledLocationsKeepOrder | app/src/main/java/com/toddmargolis/astroalert/data/models/ObservingLocation.kt:15-16 | the filter keeps registry order (it commutes with concatenation) |
| Locations.EnabledByDefault | app/src/main/java/com/toddmargolis/astroalert/data/models/ObservingLocation.kt:7 | `enabled` defaults to true |
| Locations.RegistryAsShipped | app/src/main/java/com/toddmargolis/astroalert/data/models/ObservingLocation.kt:10-16 | only Indiana Dunes (41.66, -87.04) is enabled; every site has valid coordinates |
| Seqs.Filter | app/src/main/java/com/toddmargolis/astroalert/data/models/ObservingLocation.kt:16 | `filter` keeps exactly the elements that satisfy the predicate |
| Ranking.SortDesc | app/src/main/java/com/toddmargolis/astroalert/MainActivity.kt:539 | `sortedByDescending` gives a non-increasing permutation of its input |
| Ranking.SortStable | app/src/main/java/com/toddmargolis/astroalert/MainActivity.kt:539 | the sort is stable: equal keys keep their input order |
| Ranking.Top | app/src/main/java/com/toddmargolis/astroalert/MainActivity.kt:539-540 | sort-then-take returns min(n, size) elements forming a sub-multiset of the input (no input element repeated), in non-increasing key order; nothing left out has a larger key than anything kept |
| Ranking.TopStable | app/src/main/java/com/toddmargolis/astroalert/MainActivity.kt:539-540 | ties among the kept elements stay in input order |
| Ranking.TopPrefersEarlierTies | app/src/main/java/com/toddmargolis/astroalert/MainActivity.kt:539-540 | an element left out loses to every kept element, on its key or, on a tie, to an element earlier in the input, so the earliest of equally ranked elements survive the limit |
| Ranking.KeptOrOutranked | app/src/main/java/com/toddmargolis/astroalert/MainActivity.kt:539-540 | an input element is kept, or the top is full of elements at least as good |
| Text.Decimal | app/src/main/java/com/toddmargolis/astroalert/domain/ConditionEvaluator.kt:174 | a non-negative `Int` prints as digits; a negative one as a minus sign followed by the digits of its magnitude |
| Text.NatDigitsRoundTrip | app/src/main/java/com/toddmargolis/astroalert/domain/ConditionEvaluator.kt:174 | reading the printed digits back gives the number |
| Text.DecimalRoundTrip | app/src/main/java/com/toddmargolis/astroalert/domain/ConditionEvaluator.kt:174 | reading a printed `Int` back, sign included, gives the number |
| Evaluator.HoursToSunset | app/src/main/java/com/toddmargolis/astroalert/domain/ConditionEvaluator.kt:58-63 | hours to sunset are `(sunset - now) mod 24`, in [0, 23] |
| Evaluator.HoursToEndOfNight | app/src/main/java/com/toddmargolis/astroalert/domain/ConditionEvaluator.kt:66-72 | lies in [-1, 23] and agrees with `(sunrise - 2 - now) mod 24` modulo 24; it equals that value whenever sunrise >= 2, and it is -1 exactly for sunrise 0 seen at 23:00, so every in-range input has one value |
| Evaluator.EndOfNightBeforeNow | app/src/main/java/com/toddmargolis/astroalert/domain/ConditionEvaluator.kt:66-72 | a sunrise at 00:00 seen at 23:00 gives an end offset of -1 |
| Evaluator.RowsBetween | app/src/main/java/com/toddmargolis/astroalert/domain/ConditionEvaluator.kt:81-91 | rows appear in increasing offset order, exactly for the offsets in range where all three series have a value |
| Evaluator.HourlyRows | app/src/main/java/com/toddmargolis/astroalert/domain/ConditionEvaluator.kt:74-91 | rows run from the start offset to the end offset (capped at the last cloud entry), for exactly the hours all series have; none when the end is before the start |
| Evaluator.MoonLineFor | app/src/main/java/com/toddmargolis/astroalert/domain/ConditionEvaluator.kt:93-99 | "data unavailable" exactly without sky data; otherwise the truncated illumination, and "above horizon" exactly when the altitude is positive |
| Evaluator.BuildNightDataSummary | app/src/main/java/com/toddmargolis/astroalert/domain/ConditionEvaluator.kt:44-114 | the start offset is the hours from now to sunset, (sunset - now) mod 24; the end offset is the hours to two hours before sunrise, (sunrise - 2 - now) mod 24 (for a sunrise before 02:00 only modulo 24, and it is -1 exactly for sunrise 0 seen at 23:00, which leaves no rows); the rows are exactly the forecast hours between the two offsets, each with its truncated values, in increasing order; the moon line is missing exactly when there is no sky data, and otherwise gives the truncated illumination and whether the moon is above the horizon |
| Evaluator.FallbackAnalysis | app/src/main/java/com/toddmargolis/astroalert/domain/ConditionEvaluator.kt:224-234 | the fallback is a poor night with cloud cover 50, seeing 2, transparency 15 and no moon data, and its message is the fixed prefix followed by the error text |
| Evaluator.TryAnalyze | app/src/main/java/com/toddmargolis/astroalert/domain/ConditionEvaluator.kt:117-213 | the `try` block succeeds exactly when the key is configured, the status is 200 and the body parses, returning the parsed fields with no moon data; a missing key, a failed call and a non-200 status each fail with their own message |
| Evaluator.AnalyzeWithGemini | app/src/main/java/com/toddmargolis/astroalert/domain/ConditionEvaluator.kt:116-222 | always returns a value: the parsed analysis exactly when the key is configured, the status is 200 and the reply parses; otherwise the fallback (cloud 50, seeing 2, transparency 15), with "Unknown error" when the failure has no message |
| Evaluator.EvaluateNightConditions | app/src/main/java/com/toddmargolis/astroalert/domain/ConditionEvaluator.kt:29-42 | the moon fields are always null; an unconfigured key always gives the fallback; when the model answers this night's summary the assessment is its answer, and otherwise it is the fallback (not good, 50/2/15), so a site is rated good only on the model's answer |
| CheckLog.InsertCheck | app/src/main/java/com/toddmargolis/astroalert/data/ConditionDao.kt:12-13 | the record is stored; every other row with a different id stays; a row with the same id is replaced; ids stay unique; an id of 0 replaces nothing |
| CheckLog.RecentChecks | app/src/main/java/com/toddmargolis/astroalert/data/ConditionDao.kt:15-16 | at most 20 rows of the table, none repeated (a sub-multiset of the rows), newest first; no row left out is newer than one returned |
| CheckLog.LatestCheckFor | app/src/main/java/com/toddmargolis/astroalert/data/ConditionDao.kt:18-19 | none exactly when no row has the name; otherwise a row with that name whose time is the latest for the name |
| CheckLog.NewestIsLatest | app/src/main/java/com/toddmargolis/astroalert/data/ConditionDao.kt:18-19 | a row at least as new as every other row of its site has the time the latest-check query returns |
| CheckLog.DeleteOldChecks | app/src/main/java/com/toddmargolis/astroalert/data/ConditionDao.kt:21-22 | removes exactly the rows older than the cutoff, keeps the rest unchanged, and keeps ids unique |
| CheckLog.DeleteOldChecksIdempotent | app/src/main/java/com/toddmargolis/astroalert/data/ConditionDao.kt:21-22 | deleting twice with one cutoff equals deleting once |
| CheckLog.PruneOldChecks | app/src/main/java/com/toddmargolis/astroalert/workers/WeatherCheckWorker.kt:97-99 | the worker keeps exactly the checks from the last seven days |
| CheckLog.InsertedCheckIsLatest | app/src/main/java/com/toddmargolis/astroalert/data/ConditionDao.kt:12-19 | a new check at least as recent as the site's others is what the latest-check query then returns |
| Scheduler.ScheduleCheckAt | app/src/main/java/com/toddmargolis/astroalert/workers/WorkScheduler.kt:21-41 | 24-hour period; the delay is in [0, 24 h) and lands on `hour`:00:00 keeping the milliseconds; the delay is 0 exactly when now already reads `hour`:00:00 |
| Scheduler.EnqueueKeep | app/src/main/java/com/toddmargolis/astroalert/workers/WorkScheduler.kt:44-48 | the `KEEP` policy: a name already queued keeps its request; other entries are untouched |
| Scheduler.ScheduleWeatherChecks | app/src/main/java/com/toddmargolis/astroalert/workers/WorkScheduler.kt:12-19 | queues "morning_check", "midday_check" and "afternoon_check" at 6, 11 and 16 unless already queued, and touches nothing else |
| Scheduler.RescheduleKeepsQueue | app/src/main/java/com/toddmargolis/astroalert/workers/WorkScheduler.kt:16-18 | scheduling again, at any time, leaves the queue as the first scheduling left it |
| Selection.LocationScoreRanksConditions | app/src/main/java/com/toddmargolis/astroalert/MainActivity.kt:418-432 | less cloud, better seeing and a higher transparency value never lower the score; the scores tie only when all three tie |
| Selection.FallbackScore | app/src/main/java/com/toddmargolis/astroalert/MainActivity.kt:418-432 | a site whose analysis fell back scores 67.5 |
| Selection.LocationScoreWeights | app/src/main/java/com/toddmargolis/astroalert/MainActivity.kt:418-432 | the difference of two scores is the cloud difference with weight -1, the seeing difference with weight 5 and the transparency difference with weight 1/2 |
| Selection.LocationScore | app/src/main/java/com/toddmargolis/astroalert/MainActivity.kt:418-432 | no contract of its own; the linear score 100 - cloud + 5 * seeing + transparency / 2 is fixed by LocationScoreWeights (its weights) together with FallbackScore (its value at one point), and its monotonicity is proved by LocationScoreRanksConditions |
| Selection.SunHours | app/src/main/java/com/toddmargolis/astroalert/MainActivity.kt:124-133 | the parsed hours are used when the sun-times request succeeds, 17 and 7 when it fails, and none when parsing throws |
| Selection.AssessSite | app/src/main/java/com/toddmargolis/astroalert/MainActivity.kt:116-182 | a site is scored exactly when its sun times parse (or fall back to 17/7) and a forecast arrives; the score is the site score of its evaluated conditions |
| Selection.AssessSites | app/src/main/java/com/toddmargolis/astroalert/MainActivity.kt:113-183 | only sites that produced a score are candidates, and every such site is one |
| Selection.AssessSitesAppend | app/src/main/java/com/toddmargolis/astroalert/MainActivity.kt:116-183 | candidates come in site order |
| Selection.FirstMaximumUnique | app/src/main/java/com/toddmargolis/astroalert/MainActivity.kt:187 | the first maximum is unique |
| Selection.PickBest | app/src/main/java/com/toddmargolis/astroalert/MainActivity.kt:186-189 | no choice exactly when there are no candidates; otherwise the first candidate with the highest score |
| Selection.AssessTarget | app/src/main/java/com/toddmargolis/astroalert/MainActivity.kt:503-538 | a target is kept exactly when it has both coordinates and at least one quality hour; it carries its transit time, peak altitude and quality hours |
| Selection.AssessFrom | app/src/main/java/com/toddmargolis/astroalert/MainActivity.kt:503-538 | every kept target comes from the list and every qualifying target is kept, in catalog order |
| Selection.RecommendTargets | app/src/main/java/com/toddmargolis/astroalert/MainActivity.kt:486-540 | at most 5 positioned targets, each with quality hours >= 1 and each exactly the assessment of its catalog entry (transit time, peak altitude and quality hours); non-increasing quality with ties in catalog order; a qualifying target is left out only when five at least as good are shown, and each of those scores more or, on equal quality, comes earlier in the catalog |
| Selection.KeptTarget | app/src/main/java/com/toddmargolis/astroalert/MainActivity.kt:503-538 | a kept target is a positioned catalog entry with at least one quality hour |
| Selection.QualifyingTarget | app/src/main/java/com/toddmargolis/astroalert/MainActivity.kt:533-540 | a qualifying target is shown, or five at least as good are |
| Selection.TiesGoToEarlierTargets | app/src/main/java/com/toddmargolis/astroalert/MainActivity.kt:539-540 | every qualifying target missing from the report loses to each reported target: it scores less, or scores the same and comes later in the catalog |
| Selection.CalculateTargetsForLocation | app/src/main/java/com/toddmargolis/astroalert/MainActivity.kt:434-552 | nothing is ranked exactly on a poor night; an unparseable sun time aborts; otherwise the ranking covers the month's targets over tonight's window |
| Selection.SavedRecord | app/src/main/java/com/toddmargolis/astroalert/MainActivity.kt:199-211 | the saved row carries the best site's name and conditions and the check time; the moon and target fields are null |
| Selection.PerformManualCheck | app/src/main/java/com/toddmargolis/astroalert/MainActivity.kt:103-219 | the check reports no site exactly when no enabled site produces a score, and then saves nothing; otherwise the best site is the first maximum; the check is aborted, saving nothing, exactly when the target phase for the best site aborts; otherwise the record is inserted |
| Selection.OnlyIndianaDunesIsChecked | app/src/main/java/com/toddmargolis/astroalert/MainActivity.kt:116-187 | as shipped there is at most one candidate, and it is Indiana Dunes whenever that site scores |

## Left out

- Network I/O is not modelled. This covers the sun-times, forecast,
  sky-data and target-list requests and the language-model HTTP call with
  its JSON. Each appears only as its outcome (`SunTimesReply`,
  `ForecastReply`, `Option<Moon>`, `ListFetch`, `GeminiReply`).
- The prompt prose and the status-log text are not modelled. The night
  summary is modelled as its data (offsets, rows, moon line).
- Time parsing with java.time (`SunTimeHelper`), time zones with daylight
  saving, and leap seconds are not modelled. Sunset and sunrise hours are
  inputs in [0, 23], and the zone is a fixed offset.
- The calendar month used to pick the seasonal lists is an input
  (`TargetInputs.month`); it is not derived from the clock reading.
- Sky.MinutesUntilTransit: the source reads the UTC clock on every call;
  the model uses one reading `utcNow` for the whole ranking.
- Scheduler.ScheduleCheckAt: the source takes two clock readings (current
  time and target); the model uses one instant for both.
- Numerics.TruncToInt: models finite inputs only. `toInt()` saturation at
  the `Int` bounds and NaN are not modelled.
- Sky.AltitudeAtTime: no claim about the accuracy of the trigonometry or of
  the sidereal-time approximation. The only fact used is the range of the
  arcsine; NaN outside its domain is not modelled.
- Sky.HourAngle: the ranges hold under conditions on the inputs (after
  J2000, longitude in [-180, 180], RA in [0, 24]). The functions accept any
  input, as the source does.
- Visibility.Band: the contract gives the two outer bands (0 below 25 degrees, 1 at 60 or more) and their order. The inner values 0.1, 0.5 and 0.8 are fixed only by its definition.
- Floating-point rounding is not modelled; constants such as 0.985647 are
  exact reals.
- Selection.PickBest: NaN scores are not modelled.
- Room's order among rows with equal `checkTime` is left open. The contracts
  of `RecentChecks` and `LatestCheckFor` hold for any tie order.
- CheckLog.InsertCheck: SQLite's `INTEGER` range and the `Int` width of the
  id are not modelled, so an exhausted id counter is out of scope.
- The UI is not modelled: `displayLastChecks`, `formatTime`, the permission
  request, buttons and notifications.
- The mock-data branches are not modelled. `MOCK_MODE` is `false` in the
  source, so those branches never run.
- The rest of `WeatherCheckWorker` is not modelled, only its seven-day
  cutoff. It is context, not core.
- Coroutines, `lifecycleScope` and the database singleton are not modelled.

=== FILE: catalog.dfy ===
/** The seasonal target catalog: which observing lists are fetched in which
    month, and how the fetched lists become one sequence of targets. */
module Catalog {
  import opened Wrappers

  /** A remote observing list: its identifier and display name. */
  datatype SeasonList = SeasonList(id: string, name: string)

  const Winter: SeasonList := SeasonList("4ac5209f", "Winter")
  const Spring: SeasonList := SeasonList("a77bb683", "Spring")
  const Summer: SeasonList := SeasonList("be1f7d01", "Summer")
  const Fall: SeasonList := SeasonList("9cf4f90c", "Fall")

  /** The lists fetched in `month` (0 = January, 11 = December). */
  function SeasonListIds(month: int): (lists: seq<SeasonList>)
    ensures 1 <= |lists| <= 2
    ensures |lists| == 2 <==> month == 2 || month == 5 || month == 8 || month == 11
    ensures !(0 <= month < 12) ==> lists == [Fall]
  {
    match month
    case 0 | 1 => [Winter]
    case 2 => [Winter, Spring]
    case 3 | 4 => [Spring]
    case 5 => [Spring, Summer]
    case 6 | 7 => [Summer]
    case 8 => [Summer, Fall]
    case 9 | 10 => [Fall]
    case 11 => [Fall, Winter]
    case _ => [Fall]
  }

  /** The three-month season a month falls in, counting December with the
      following January and February. */
  function SeasonOf(month: int): SeasonList
    requires 0 <= month < 12
  {
    [Winter, Spring, Summer, Fall][((month + 1) % 12) / 3]
  }

  /** Ordinary months fetch their own season's list; the first month of each
      season (March, June, September, December) fetches the previous
      season's list followed by its own. */
  lemma SeasonListsFollowSeasons(month: int)
    requires 0 <= month < 12
    ensures month % 3 != 2 ==> SeasonListIds(month) == [SeasonOf(month)]
    ensures month % 3 == 2 ==> SeasonListIds(month) == [SeasonOf(month - 1), SeasonOf((month + 1) % 12)]
  {
  }

  /** A transition month's lists are the previous month's followed by the
      next month's, December wrapping round to January. */
  lemma TransitionMonthsJoinNeighbours(month: int)
    requires month == 2 || month == 5 || month == 8 || month == 11
    ensures SeasonListIds(month) == SeasonListIds(month - 1) + SeasonListIds((month + 1) % 12)
  {
  }

  datatype Coordinates = Coordinates(ra: real, dec: real)

  /** An entry of a fetched list; its coordinates may be missing. */
  datatype CatalogObject = CatalogObject(name: string, coordinates: Option<Coordinates>)

  /** The outcome of fetching one list: a failure, or a list whose object
      array may be absent. */
  datatype ListFetch = ListFailed | ListFetched(objects: Option<seq<CatalogObject>>)

  /** A target as assembled for scoring; `id` records the list it came from. */
  datatype Target = Target(id: string, name: string, rightAscension: Option<real>, declination: Option<real>)

  function ObjectTarget(listId: string, obj: CatalogObject): Target {
    match obj.coordinates
    case Some(c) => Target(listId, obj.name, Some(c.ra), Some(c.dec))
    case None => Target(listId, obj.name, None, None)
  }

  /** The targets one fetched list contributes: none when the fetch failed or
      the object array is absent or empty. */
  function ListTargets(listId: string, fetch: ListFetch): (ts: seq<Target>)
    ensures fetch.ListFailed? || fetch.objects.None? ==> ts == []
    ensures fetch.ListFetched? && fetch.objects.Some? ==>
              |ts| == |fetch.objects.value| &&
              forall i :: 0 <= i < |ts| ==> ts[i] == ObjectTarget(listId, fetch.objects.value[i])
  {
    match fetch
    case ListFailed => []
    case ListFetched(None) => []
    case ListFetched(Some(objs)) => seq(|objs|, i requires 0 <= i < |objs| => ObjectTarget(listId, objs[i]))
  }

  /** A list that arrived with its object array. */
  predicate Fetched(fetch: ListFetch) {
    fetch.ListFetched? && fetch.objects.Some?
  }

  /** All targets of the month's lists, list by list in order. */
  function AssembleTargets(lists: seq<SeasonList>, fetch: string -> ListFetch): (ts: seq<Target>)
    ensures forall i :: 0 <= i < |ts| ==>
              exists k :: 0 <= k < |lists| && ts[i].id == lists[k].id && fetch(lists[k].id).ListFetched?
    ensures (forall k :: 0 <= k < |lists| ==> fetch(lists[k].id).ListFailed?) ==> ts == []
    ensures forall i :: 0 <= i < |ts| ==> (ts[i].rightAscension.Some? <==> ts[i].declination.Some?)
    ensures forall k, j :: 0 <= k < |lists| && Fetched(fetch(lists[k].id)) && 0 <= j < |fetch(lists[k].id).objects.value| ==>
              ObjectTarget(lists[k].id, fetch(lists[k].id).objects.value[j]) in ts
    decreases |lists|
  {
    if |lists| == 0 then []
    else
      var head := ListTargets(lists[0].id, fetch(lists[0].id));
      var tail := AssembleTargets(lists[1..], fetch);
      assert forall i :: 0 <= i < |tail| ==>
        exists k :: 0 <= k < |lists| && tail[i].id == lists[k].id && fetch(lists[k].id).ListFetched? by {
        forall i | 0 <= i < |tail|
          ensures exists k :: 0 <= k < |lists| && tail[i].id == lists[k].id && fetch(lists[k].id).ListFetched?
        {
          var k :| 0 <= k < |lists[1..]| && tail[i].id == lists[1..][k].id && fetch(lists[1..][k].id).ListFetched?;
          assert lists[k + 1] == lists[1..][k];
        }
      }
      ConsCovers(lists, fetch, tail);
      head + tail
  }

  /** The objects of the first list come first; those of later lists are in
      the tail. */
  lemma ConsCovers(lists: seq<SeasonList>, fetch: string -> ListFetch, tail: seq<Target>)
    requires |lists| > 0
    requires forall k, j :: 0 <= k < |lists[1..]| && Fetched(fetch(lists[1..][k].id)) && 0 <= j < |fetch(lists[1..][k].id).objects.value| ==>
               ObjectTarget(lists[1..][k].id, fetch(lists[1..][k].id).objects.value[j]) in tail
    ensures var ts := ListTargets(lists[0].id, fetch(lists[0].id)) + tail;
            forall k, j :: 0 <= k < |lists| && Fetched(fetch(lists[k].id)) && 0 <= j < |fetch(lists[k].id).objects.value| ==>
              ObjectTarget(lists[k].id, fetch(lists[k].id).objects.value[j]) in ts
  {
    var head := ListTargets(lists[0].id, fetch(lists[0].id));
    forall k, j | 0 <= k < |lists| && Fetched(fetch(lists[k].id)) && 0 <= j < |fetch(lists[k].id).objects.value|
      ensures ObjectTarget(lists[k].id, fetch(lists[k].id).objects.value[j]) in head + tail
    {
      if k == 0 {
        assert (head + tail)[j] == head[j];
      } else {
        assert lists[1..][k - 1] == lists[k];
      }
    }
  }

  /** A single list assembles to exactly that list's targets; with
      `AssembleAppend` this fixes the whole result, in order. */
  lemma AssembleOne(l: SeasonList, fetch: string -> ListFetch)
    ensures AssembleTargets([l], fetch) == ListTargets(l.id, fetch(l.id))
  {
    assert [l][1..] == [];
  }

  /** Assembly over a concatenation of lists is the concatenation of the
      assemblies: the order of lists and of objects within them is kept. */
  lemma {:induction false} AssembleAppend(a: seq<SeasonList>, b: seq<SeasonList>, fetch: string -> ListFetch)
    ensures AssembleTargets(a + b, fetch) == AssembleTargets(a, fetch) + AssembleTargets(b, fetch)
    decreases |a|
  {
    if |a| == 0 {
      assert a + b == b;
    } else {
      assert (a + b)[1..] == a[1..] + b;
      AssembleAppend(a[1..], b, fetch);
    }
  }

  /** A transition month scores the targets of both neighbouring seasons. */
  lemma TransitionMonthScoresBothSeasons(month: int, fetch: string -> ListFetch)
    requires month == 2 || month == 5 || month == 8 || month == 11
    ensures AssembleTargets(SeasonListIds(month), fetch)
            == AssembleTargets(SeasonListIds(month - 1), fetch) + AssembleTargets(SeasonListIds((month + 1) % 12), fetch)
  {
    TransitionMonthsJoinNeighbours(month);
    AssembleAppend(SeasonListIds(month - 1), SeasonListIds((month + 1) % 12), fetch);
  }
}

=== FILE: checklog.dfy ===
/** The `condition_checks` table and the four queries the app runs on it. */
module CheckLog {
  import opened Wrappers
  import opened Seqs
  import opened Ranking
  import Clock

  /** One saved check of a site. An `id` of 0 asks the database to number
      the row itself. */
  datatype CheckRecord = CheckRecord(
    id: int,
    locationName: string,
    checkTime: int,
    isGood: bool,
    cloudCover: real,
    seeing: real,
    transparency: real,
    moonIllumination: Option<real>,
    moonAltitude: Option<real>,
    message: string,
    recommendedTargets: Option<string>)

  /** The table's rows and the highest id ever handed out (SQLite's
      `AUTOINCREMENT` counter). */
  datatype Table = Table(rows: seq<CheckRecord>, lastId: int)

  predicate DistinctIds(a: CheckRecord, b: CheckRecord) {
    a.id != b.id
  }

  /** The primary key is unique and no row is numbered past the counter. */
  predicate Valid(t: Table) {
    && Pairwise(t.rows, DistinctIds)
    && forall i :: 0 <= i < |t.rows| ==> t.rows[i].id <= t.lastId
  }

  /** The id a record is stored under. */
  function StoredId(t: Table, rec: CheckRecord): int {
    if rec.id == 0 then t.lastId + 1 else rec.id
  }

  function OtherId(id: int): CheckRecord -> bool {
    (r: CheckRecord) => r.id != id
  }

  /** `INSERT OR REPLACE`: a row with the same id is dropped before the
      record is added; a record without an id gets the next counter value. */
  function InsertCheck(t: Table, rec: CheckRecord): (t': Table)
    ensures rec.(id := StoredId(t, rec)) in t'.rows
    ensures forall i :: 0 <= i < |t.rows| && t.rows[i].id != StoredId(t, rec) ==> t.rows[i] in t'.rows
    ensures forall i :: 0 <= i < |t'.rows| ==>
              t'.rows[i] == rec.(id := StoredId(t, rec)) ||
              (t'.rows[i] in t.rows && t'.rows[i].id != StoredId(t, rec))
    ensures Valid(t) ==> Valid(t')
    ensures Valid(t) && rec.id == 0 ==> forall i :: 0 <= i < |t.rows| ==> t.rows[i] in t'.rows
  {
    var id := StoredId(t, rec);
    var kept := Filter(t.rows, OtherId(id));
    var rows := kept + [rec.(id := id)];
    var t' := Table(rows, if id > t.lastId then id else t.lastId);
    if Valid(t) then
      FilterPairwise(t.rows, OtherId(id), DistinctIds);
      assert Pairwise(rows, DistinctIds) by {
        forall i, j | 0 <= i < j < |rows|
          ensures DistinctIds(rows[i], rows[j])
        {
          if j == |kept| {
            assert rows[i] == kept[i] && OtherId(id)(kept[i]);
          } else {
            assert rows[i] == kept[i] && rows[j] == kept[j];
          }
        }
      }
      t'
    else
      t'
  }

  function CheckTimeKey(r: CheckRecord): real {
    r.checkTime as real
  }

  /** The page size of the history query. */
  const RecentLimit: nat := 20

  /** `ORDER BY checkTime DESC LIMIT 20`: the newest checks, newest first;
      no check left out is newer than one returned. */
  function RecentChecks(t: Table): (r: seq<CheckRecord>)
    ensures |r| == if |t.rows| < RecentLimit then |t.rows| else RecentLimit
    ensures forall i :: 0 <= i < |r| ==> r[i] in t.rows
    ensures multiset(r) <= multiset(t.rows)
    ensures forall i, j :: 0 <= i < j < |r| ==> r[i].checkTime >= r[j].checkTime
    ensures forall k :: 0 <= k < |t.rows| ==>
              t.rows[k] in r || (|r| == RecentLimit && forall i :: 0 <= i < |r| ==> t.rows[k].checkTime <= r[i].checkTime)
  {
    NewestFirst(Top(t.rows, RecentLimit, CheckTimeKey));
    NoneNewerLeftOut(t.rows, Top(t.rows, RecentLimit, CheckTimeKey));
    Top(t.rows, RecentLimit, CheckTimeKey)
  }

  /** A list sorted on the key is sorted on the check time. */
  lemma NewestFirst(r: seq<CheckRecord>)
    requires SortedDesc(r, CheckTimeKey)
    ensures forall i, j :: 0 <= i < j < |r| ==> r[i].checkTime >= r[j].checkTime
  {
    assert forall i, j :: 0 <= i < j < |r| ==> CheckTimeKey(r[i]) >= CheckTimeKey(r[j]);
  }

  /** The key comparison of `Top` read as a comparison of check times. */
  lemma NoneNewerLeftOut(rows: seq<CheckRecord>, r: seq<CheckRecord>)
    requires forall k :: 0 <= k < |rows| ==>
               rows[k] in r || (|r| == RecentLimit && forall i :: 0 <= i < |r| ==> CheckTimeKey(rows[k]) <= CheckTimeKey(r[i]))
    ensures forall k :: 0 <= k < |rows| ==>
              rows[k] in r || (|r| == RecentLimit && forall i :: 0 <= i < |r| ==> rows[k].checkTime <= r[i].checkTime)
  {
  }

  function AtLocation(name: string): CheckRecord -> bool {
    (r: CheckRecord) => r.locationName == name
  }

  /** `WHERE locationName = :location ORDER BY checkTime DESC LIMIT 1`: the
      newest check of one site, or none when the site was never checked. */
  function LatestCheckFor(t: Table, name: string): (r: Option<CheckRecord>)
    ensures r.None? <==> forall i :: 0 <= i < |t.rows| ==> t.rows[i].locationName != name
    ensures r.Some? ==> r.value in t.rows && r.value.locationName == name
    ensures r.Some? ==> forall i :: 0 <= i < |t.rows| && t.rows[i].locationName == name ==>
              t.rows[i].checkTime <= r.value.checkTime
  {
    var matching := Filter(t.rows, AtLocation(name));
    var top := Top(matching, 1, CheckTimeKey);
    if |top| == 0 then
      assert |matching| == 0;
      None
    else
      assert top[0] in matching && AtLocation(name)(top[0]);
      forall i | 0 <= i < |t.rows| && t.rows[i].locationName == name
        ensures t.rows[i].checkTime <= top[0].checkTime
      {
        assert AtLocation(name)(t.rows[i]);
        KeptOrOutranked(matching, 1, CheckTimeKey, t.rows[i]);
      }
      Some(top[0])
  }

  function NotOlderThan(cutoff: int): CheckRecord -> bool {
    (r: CheckRecord) => r.checkTime >= cutoff
  }

  /** `DELETE ... WHERE checkTime < :cutoffTime`: exactly the checks made
      before the cutoff go; the id counter is untouched. */
  function DeleteOldChecks(t: Table, cutoff: int): (t': Table)
    ensures forall i :: 0 <= i < |t'.rows| ==> t'.rows[i] in t.rows && t'.rows[i].checkTime >= cutoff
    ensures forall i :: 0 <= i < |t.rows| && t.rows[i].checkTime >= cutoff ==> t.rows[i] in t'.rows
    ensures t'.lastId == t.lastId
    ensures Valid(t) ==> Valid(t')
  {
    var rows := Filter(t.rows, NotOlderThan(cutoff));
    if Valid(t) then
      FilterPairwise(t.rows, NotOlderThan(cutoff), DistinctIds);
      Table(rows, t.lastId)
    else
      Table(rows, t.lastId)
  }

  /** Pruning a second time with the same cutoff removes nothing more. */
  lemma DeleteOldChecksIdempotent(t: Table, cutoff: int)
    ensures DeleteOldChecks(DeleteOldChecks(t, cutoff), cutoff) == DeleteOldChecks(t, cutoff)
  {
    FilterIdempotent(t.rows, NotOlderThan(cutoff));
  }

  /** The retention period of the background worker: seven days. */
  const RetentionMillis: int := 7 * 24 * 60 * 60 * 1000

  /** The worker's clean-up at `now`: checks older than a week are deleted
      and every check from the last week is kept. */
  function PruneOldChecks(t: Table, now: int): (t': Table)
    ensures forall i :: 0 <= i < |t'.rows| ==> t'.rows[i] in t.rows && now - t'.rows[i].checkTime <= 7 * Clock.DayMillis
    ensures forall i :: 0 <= i < |t.rows| && now - t.rows[i].checkTime <= 7 * Clock.DayMillis ==> t.rows[i] in t'.rows
    ensures Valid(t) ==> Valid(t')
  {
    DeleteOldChecks(t, now - RetentionMillis)
  }

  /** A check saved with the newest time of its site is what the results
      screen then shows for that site. */
  lemma {:induction false} InsertedCheckIsLatest(t: Table, rec: CheckRecord)
    requires Valid(t) && rec.id == 0
    requires forall i :: 0 <= i < |t.rows| && t.rows[i].locationName == rec.locationName ==>
               t.rows[i].checkTime <= rec.checkTime
    ensures var latest := LatestCheckFor(InsertCheck(t, rec), rec.locationName);
            latest.Some? && latest.value.checkTime == rec.checkTime
  {
    var t' := InsertCheck(t, rec);
    var stored := rec.(id := StoredId(t, rec));
    forall i | 0 <= i < |t'.rows| && t'.rows[i].locationName == rec.locationName
      ensures t'.rows[i].checkTime <= stored.checkTime
    {
      if t'.rows[i] != stored {
        var j :| 0 <= j < |t.rows| && t.rows[j] == t'.rows[i];
      }
    }
    NewestIsLatest(t', rec.locationName, stored);
  }

  /** A row at least as new as every other row of its site is as new as the
      one the latest-check query returns. */
  lemma NewestIsLatest(t: Table, name: string, x: CheckRecord)
    requires x in t.rows && x.locationName == name
    requires forall i :: 0 <= i < |t.rows| && t.rows[i].locationName == name ==> t.rows[i].checkTime <= x.checkTime
    ensures var latest := LatestCheckFor(t, name);
            latest.Some? && latest.value.checkTime == x.checkTime
  {
    var k :| 0 <= k < |t.rows| && t.rows[k] == x;
    var latest := LatestCheckFor(t, name);
    var m :| 0 <= m < |t.rows| && t.rows[m] == latest.value;
  }
}

=== FILE: clock.dfy ===
/** Instants as integer epoch milliseconds (`Calendar.timeInMillis`) and the
    calendar fields a `java.util.Calendar` derives from them in a zone with a
    fixed offset from UTC (no daylight saving), with every day 86,400,000 ms. */
module Clock {

  const SecondMillis: int := 1000
  const MinuteMillis: int := 60000
  const HourMillis: int := 3600000
  const DayMillis: int := 86400000

  /** An hour of the day, as `HOUR_OF_DAY` and `ZonedDateTime.hour` give it. */
  type Hour = h: int | 0 <= h < 24

  /** `HOUR_OF_DAY`, `MINUTE` and `SECOND` of a calendar. */
  datatype ClockFields = ClockFields(hour: int, minute: int, second: int)

  predicate ValidFields(f: ClockFields) {
    0 <= f.hour < 24 && 0 <= f.minute < 60 && 0 <= f.second < 60
  }

  /** The instant at which the local day containing `t` begins; `zone` is the
      local offset from UTC in milliseconds. */
  function DayStart(t: int, zone: int): (d: int)
    ensures d <= t < d + DayMillis
    ensures (d + zone) % DayMillis == 0
  {
    t - (t + zone) % DayMillis
  }

  /** The local calendar fields of instant `t`. */
  function Fields(t: int, zone: int): (f: ClockFields)
    ensures ValidFields(f)
    ensures t == DayStart(t, zone) + f.hour * HourMillis + f.minute * MinuteMillis
                 + f.second * SecondMillis + (t + zone) % SecondMillis
  {
    var ms := (t + zone) % DayMillis;
    var inHour := ms % HourMillis;
    var inMinute := inHour % MinuteMillis;
    MillisOfSecond(t + zone, ms / HourMillis, inHour / MinuteMillis, inMinute / SecondMillis, inMinute % SecondMillis);
    ClockFields(ms / HourMillis, inHour / MinuteMillis, inMinute / SecondMillis)
  }

  /** The millisecond-of-second field does not depend on the coarser fields. */
  lemma MillisOfSecond(local: int, hour: int, minute: int, second: int, millis: int)
    requires 0 <= millis < 1000
    requires local % 86400000 == hour * 3600000 + minute * 60000 + second * 1000 + millis
    ensures local % 1000 == millis
  {
    var days := local / 86400000;
    assert local == days * 86400000 + local % 86400000;
    var whole := days * 86400 + hour * 3600 + minute * 60 + second;
    assert local == whole * 1000 + millis;
    DivModUnique(local, 1000, whole, millis);
  }

  /** The time within the minute is the same whether or not the day and the
      hour are taken off first. */
  lemma WithinMinute(local: int)
    ensures ((local % 86400000) % 3600000) % 60000 == local % 60000
  {
    var b := local % 86400000;
    var d := b % 3600000;
    var f := d % 60000;
    assert local == (local / 86400000) * 86400000 + b;
    assert b == (b / 3600000) * 3600000 + d;
    assert d == (d / 60000) * 60000 + f;
    var whole := (local / 86400000) * 1440 + (b / 3600000) * 60 + d / 60000;
    assert local == whole * 60000 + f;
    DivModUnique(local, 60000, whole, f);
  }

  /** The time within the minute splits into whole seconds and milliseconds. */
  lemma SplitMinute(local: int)
    ensures local % 60000 == ((local % 60000) / 1000) * 1000 + local % 1000
  {
    var f := local % 60000;
    assert local == (local / 60000) * 60000 + f;
    assert f == (f / 1000) * 1000 + f % 1000;
    assert local == ((local / 60000) * 60 + f / 1000) * 1000 + f % 1000;
    DivModUnique(local, 1000, (local / 60000) * 60 + f / 1000, f % 1000);
  }

  /** Euclidean division is determined by any decomposition with an
      in-range remainder. */
  lemma DivModUnique(x: int, m: int, q: int, r: int)
    requires m > 0 && x == q * m + r && 0 <= r < m
    ensures x / m == q && x % m == r
  {
    var q' := x / m;
    var r' := x % m;
    assert x == q' * m + r';
    if q' < q {
      assert (q - q') * m == r' - r;
      MulAtLeast(q - q', m);
    } else if q' > q {
      assert (q' - q) * m == r - r';
      MulAtLeast(q' - q, m);
    }
  }

  lemma {:induction false} MulAtLeast(k: int, m: int)
    requires k >= 1 && m > 0
    ensures k * m >= m
    decreases k
  {
    if k > 1 {
      MulAtLeast(k - 1, m);
      assert k * m == (k - 1) * m + m;
    }
  }

  /** A copy of the calendar at `t` after `set(HOUR_OF_DAY, hour)` and
      `set(MINUTE, 0)`: same local day, seconds and milliseconds kept. */
  function AtHour(t: int, zone: int, hour: int): (r: int)
    requires 0 <= hour < 24
    ensures DayStart(t, zone) <= r < DayStart(t, zone) + DayMillis
    ensures r == DayStart(t, zone) + hour * HourMillis + Fields(t, zone).second * SecondMillis
                 + (t + zone) % SecondMillis
    ensures DayStart(r, zone) == DayStart(t, zone)
    ensures Fields(r, zone) == ClockFields(hour, 0, Fields(t, zone).second)
    ensures (r + zone) % SecondMillis == (t + zone) % SecondMillis
  {
    WithinMinute(t + zone);
    SplitMinute(t + zone);
    var d := DayStart(t, zone);
    var second := Fields(t, zone).second;
    var millis := (t + zone) % 1000;
    var r := d + hour * HourMillis + (t + zone) % MinuteMillis;
    assert r == d + hour * HourMillis + 0 * MinuteMillis + second * SecondMillis + millis;
    FieldsOf(d, zone, hour, 0, second, millis);
    SameDay(d, zone, r);
    KeepsMillis(d, zone, hour * 3600 + second, millis);
    r
  }

  /** A copy of the calendar at `t` after `set(HOUR_OF_DAY, hour)`,
      `set(MINUTE, 0)` and `set(SECOND, 0)`: same local day, on the hour,
      milliseconds kept. */
  function AtHourSharp(t: int, zone: int, hour: int): (r: int)
    requires 0 <= hour < 24
    ensures DayStart(r, zone) == DayStart(t, zone)
    ensures Fields(r, zone) == ClockFields(hour, 0, 0)
    ensures (r + zone) % SecondMillis == (t + zone) % SecondMillis
  {
    var d := DayStart(t, zone);
    var millis := (t + zone) % 1000;
    var r := d + hour * HourMillis + millis;
    assert r == d + hour * HourMillis + 0 * MinuteMillis + 0 * SecondMillis + millis;
    FieldsOf(d, zone, hour, 0, 0, millis);
    SameDay(d, zone, r);
    KeepsMillis(d, zone, hour * 3600, millis);
    r
  }

  /** An instant reads `hour`:00:00 exactly when setting those fields on it
      leaves it where it is. */
  lemma OnTheHour(t: int, zone: int, hour: int)
    requires 0 <= hour < 24
    ensures Fields(t, zone) == ClockFields(hour, 0, 0) <==> AtHourSharp(t, zone, hour) == t
  {
    if Fields(t, zone) == ClockFields(hour, 0, 0) {
      assert t == DayStart(t, zone) + hour * HourMillis + 0 * MinuteMillis + 0 * SecondMillis + (t + zone) % SecondMillis;
      FieldsOf(DayStart(t, zone), zone, hour, 0, 0, (t + zone) % 1000);
    }
  }

  /** Any instant within a day that starts at `d` belongs to that day. */
  lemma SameDay(d: int, zone: int, r: int)
    requires (d + zone) % DayMillis == 0 && d <= r < d + DayMillis
    ensures DayStart(r, zone) == d
  {
    var j := (d + zone) / 86400000;
    assert r + zone == j * 86400000 + (r - d);
    DivModUnique(r + zone, 86400000, j, r - d);
  }

  /** Whole seconds after the start of a day, the millisecond field is the
      offset past them. */
  lemma KeepsMillis(d: int, zone: int, seconds: int, millis: int)
    requires (d + zone) % DayMillis == 0 && 0 <= millis < 1000
    ensures (d + seconds * 1000 + millis + zone) % 1000 == millis
  {
    var j := (d + zone) / 86400000;
    assert d + seconds * 1000 + millis + zone == (j * 86400 + seconds) * 1000 + millis;
    DivModUnique(d + seconds * 1000 + millis + zone, 1000, j * 86400 + seconds, millis);
  }

  /** Reading the fields back from an instant assembled from them. */
  lemma FieldsOf(d: int, zone: int, hour: int, minute: int, second: int, millis: int)
    requires (d + zone) % DayMillis == 0
    requires ValidFields(ClockFields(hour, minute, second)) && 0 <= millis < 1000
    ensures Fields(d + hour * HourMillis + minute * MinuteMillis + second * SecondMillis + millis, zone)
            == ClockFields(hour, minute, second)
  {
    var t := d + hour * HourMillis + minute * MinuteMillis + second * SecondMillis + millis;
    var within := hour * 3600000 + minute * 60000 + second * 1000 + millis;
    var j := (d + zone) / 86400000;
    assert d + zone == j * 86400000;
    assert t + zone == j * 86400000 + within;
    DivModUnique(t + zone, 86400000, j, within);
    var inHour := minute * 60000 + second * 1000 + millis;
    DivModUnique(within, 3600000, hour, inHour);
    var inMinute := second * 1000 + millis;
    DivModUnique(inHour, 60000, minute, inMinute);
    DivModUnique(inMinute, 1000, second, millis);
  }

  /** Whole days later the calendar fields read the same. */
  lemma FieldsNextDay(t: int, zone: int)
    ensures Fields(t + DayMillis, zone) == Fields(t, zone)
    ensures (t + DayMillis + zone) % SecondMillis == (t + zone) % SecondMillis
  {
    var local := t + zone;
    DivModUnique(local + 86400000, 86400000, local / 86400000 + 1, local % 86400000);
    DivModUnique(local + 86400000, 1000, local / 1000 + 86400, local % 1000);
  }
}

=== FILE: evaluator.dfy ===
/** The condition evaluator: the night-data summary handed to the language
    model (hour offsets, the rows of the forecast it covers, the moon line)
    and the analysis step, which always answers, falling back to a fixed
    assessment on any failure. */
module Evaluator {
  import opened Wrappers
  import opened Numerics
  import Text

  /** A condition assessment for one site. */
  datatype ObservingConditions = ObservingConditions(
    isGood: bool,
    cloudCover: real,
    seeing: real,
    transparency: real,
    moonIllumination: Option<real>,
    moonAltitude: Option<real>,
    message: string)

  /** The hourly series of a forecast (index = hours from the forecast start). */
  datatype Forecast = Forecast(cloudCover: seq<real>, seeing: seq<real>, transparency: seq<real>)

  /** The moon part of the sky-position data. */
  datatype Moon = Moon(altitude: real, illumination: real)

  /** Hours from `currentHour` until sunset, wrapping past midnight. */
  function HoursToSunset(sunsetHour: int, currentHour: int): (h: int)
    ensures 0 <= sunsetHour < 24 && 0 <= currentHour < 24 ==>
              0 <= h < 24 && h == (sunsetHour - currentHour) % 24
  {
    if sunsetHour >= currentHour then sunsetHour - currentHour
    else 24 - currentHour + sunsetHour
  }

  /** Hours from `currentHour` until two hours before sunrise; with a sunrise
      before 02:00 the target hour is negative and the result can be -1. */
  function HoursToEndOfNight(sunriseHour: int, currentHour: int): (h: int)
    ensures 0 <= sunriseHour < 24 && 0 <= currentHour < 24 ==>
              -1 <= h < 24 && h % 24 == (sunriseHour - 2 - currentHour) % 24
    ensures 2 <= sunriseHour < 24 && 0 <= currentHour < 24 ==>
              h == (sunriseHour - 2 - currentHour) % 24
    ensures 0 <= sunriseHour < 24 && 0 <= currentHour < 24 ==>
              (h == -1 <==> sunriseHour == 0 && currentHour == 23)
  {
    var adjustedSunriseHour := sunriseHour - 2;
    if adjustedSunriseHour >= currentHour then adjustedSunriseHour - currentHour
    else 24 - currentHour + adjustedSunriseHour
  }

  /** A sunrise at midnight seen at 23:00 gives an end offset of -1. */
  lemma EndOfNightBeforeNow()
    ensures HoursToEndOfNight(0, 23) == -1
  {
  }

  /** One summary line: the hour offset and the three values, truncated. */
  datatype HourRow = HourRow(offset: int, cloud: int, seeing: int, transparency: int)

  /** All three series have an element at `k`. */
  predicate HasHour(f: Forecast, k: int) {
    0 <= k < |f.cloudCover| && k < |f.seeing| && k < |f.transparency|
  }

  function RowAt(f: Forecast, k: int): HourRow
    requires HasHour(f, k)
  {
    HourRow(k, TruncToInt(f.cloudCover[k]), TruncToInt(f.seeing[k]), TruncToInt(f.transparency[k]))
  }

  /** The lines for offsets `k..last`, skipping offsets some series lacks. */
  function RowsBetween(f: Forecast, k: int, last: int): (rows: seq<HourRow>)
    ensures forall i :: 0 <= i < |rows| ==>
              k <= rows[i].offset <= last && HasHour(f, rows[i].offset) && rows[i] == RowAt(f, rows[i].offset)
    ensures forall i, j :: 0 <= i < j < |rows| ==> rows[i].offset < rows[j].offset
    ensures forall o :: k <= o <= last && HasHour(f, o) ==> exists i :: 0 <= i < |rows| && rows[i].offset == o
    ensures last < k ==> rows == []
    decreases last - k
  {
    if last < k then []
    else if HasHour(f, k) then
      var rest := RowsBetween(f, k + 1, last);
      RowsCons(f, k, last, rest);
      [RowAt(f, k)] + rest
    else
      RowsBetween(f, k + 1, last)
  }

  /** Putting the row for `k` in front of the rows for `k + 1..last` keeps
      the offsets increasing and covers `k` as well. */
  lemma RowsCons(f: Forecast, k: int, last: int, rest: seq<HourRow>)
    requires HasHour(f, k) && k <= last
    requires forall i :: 0 <= i < |rest| ==>
               k + 1 <= rest[i].offset <= last && HasHour(f, rest[i].offset) && rest[i] == RowAt(f, rest[i].offset)
    requires forall i, j :: 0 <= i < j < |rest| ==> rest[i].offset < rest[j].offset
    requires forall o :: k + 1 <= o <= last && HasHour(f, o) ==> exists i :: 0 <= i < |rest| && rest[i].offset == o
    ensures var r := [RowAt(f, k)] + rest;
            && (forall i :: 0 <= i < |r| ==> k <= r[i].offset <= last && HasHour(f, r[i].offset) && r[i] == RowAt(f, r[i].offset))
            && (forall i, j :: 0 <= i < j < |r| ==> r[i].offset < r[j].offset)
            && (forall o :: k <= o <= last && HasHour(f, o) ==> exists i :: 0 <= i < |r| && r[i].offset == o)
  {
    var r := [RowAt(f, k)] + rest;
    assert forall i :: 1 <= i < |r| ==> r[i] == rest[i - 1];
    forall o | k <= o <= last && HasHour(f, o)
      ensures exists i :: 0 <= i < |r| && r[i].offset == o
    {
      if o == k {
        assert r[0].offset == o;
      } else {
        var i :| 0 <= i < |rest| && rest[i].offset == o;
        assert r[i + 1].offset == o;
      }
    }
  }

  /** The hourly lines of the summary: offsets `startOffset` up to
      `endOffset`, never past the last cloud-cover entry. */
  function HourlyRows(f: Forecast, startOffset: int, endOffset: int): (rows: seq<HourRow>)
    ensures forall i :: 0 <= i < |rows| ==>
              startOffset <= rows[i].offset <= endOffset && HasHour(f, rows[i].offset)
              && rows[i] == RowAt(f, rows[i].offset)
    ensures forall i, j :: 0 <= i < j < |rows| ==> rows[i].offset < rows[j].offset
    ensures forall o :: startOffset <= o <= endOffset && HasHour(f, o) ==>
              exists i :: 0 <= i < |rows| && rows[i].offset == o
    ensures endOffset < startOffset ==> rows == []
  {
    var last := if endOffset < |f.cloudCover| - 1 then endOffset else |f.cloudCover| - 1;
    RowsBetween(f, startOffset, last)
  }

  /** The moon line: unavailable without sky data, otherwise the truncated
      illumination and whether the moon is above the horizon. */
  datatype MoonLine = MoonUnavailable | MoonReport(illuminationPercent: int, aboveHorizon: bool)

  function MoonLineFor(sky: Option<Moon>): (line: MoonLine)
    ensures line.MoonUnavailable? <==> sky.None?
    ensures sky.Some? ==> (line.aboveHorizon <==> sky.value.altitude > 0.0)
    ensures sky.Some? && sky.value.illumination >= 0.0 ==>
              0.0 <= line.illuminationPercent as real <= sky.value.illumination < line.illuminationPercent as real + 1.0
  {
    match sky
    case None => MoonUnavailable
    case Some(m) => MoonReport(TruncToInt(m.illumination), m.altitude > 0.0)
  }

  /** The data content of the night summary. */
  datatype NightSummary = NightSummary(startOffset: int, endOffset: int, rows: seq<HourRow>, moon: MoonLine)

  /** The summary for the night from sunset to two hours before sunrise, seen
      at local hour `currentHour`. */
  function BuildNightDataSummary(f: Forecast, sky: Option<Moon>, sunsetHour: int, sunriseHour: int,
                                 currentHour: int): (s: NightSummary)
    ensures 0 <= sunsetHour < 24 && 0 <= currentHour < 24 ==>
              0 <= s.startOffset < 24 && s.startOffset == (sunsetHour - currentHour) % 24
    ensures 0 <= sunriseHour < 24 && 0 <= currentHour < 24 ==>
              -1 <= s.endOffset < 24 && s.endOffset % 24 == (sunriseHour - 2 - currentHour) % 24
    ensures 2 <= sunriseHour < 24 && 0 <= currentHour < 24 ==>
              s.endOffset == (sunriseHour - 2 - currentHour) % 24
    ensures 0 <= sunriseHour < 24 && 0 <= currentHour < 24 ==>
              (s.endOffset == -1 <==> sunriseHour == 0 && currentHour == 23)
    ensures forall i :: 0 <= i < |s.rows| ==>
              s.startOffset <= s.rows[i].offset <= s.endOffset && HasHour(f, s.rows[i].offset)
              && s.rows[i] == RowAt(f, s.rows[i].offset)
    ensures forall i, j :: 0 <= i < j < |s.rows| ==> s.rows[i].offset < s.rows[j].offset
    ensures forall o :: s.startOffset <= o <= s.endOffset && HasHour(f, o) ==>
              exists i :: 0 <= i < |s.rows| && s.rows[i].offset == o
    ensures s.endOffset < s.startOffset ==> s.rows == []
    ensures s.moon.MoonUnavailable? <==> sky.None?
    ensures sky.Some? ==> (s.moon.aboveHorizon <==> sky.value.altitude > 0.0)
    ensures sky.Some? && sky.value.illumination >= 0.0 ==>
              0.0 <= s.moon.illuminationPercent as real <= sky.value.illumination < s.moon.illuminationPercent as real + 1.0
  {
    var startOffset := HoursToSunset(sunsetHour, currentHour);
    var endOffset := HoursToEndOfNight(sunriseHour, currentHour);
    NightSummary(startOffset, endOffset, HourlyRows(f, startOffset, endOffset), MoonLineFor(sky))
  }

  /** What the model's reply body parsed to. */
  datatype BodyParse =
    | Unparseable(message: Option<string>)
    | Analysis(isGood: bool, avgCloudCover: real, avgSeeing: real, avgTransparency: real, description: string)

  /** The outcome of the HTTP exchange: an exception before a status was
      read, or a status code with the error-stream text and the parsed body. */
  datatype GeminiReply =
    | CallFailed(message: Option<string>)
    | Status(code: int, errorText: Option<string>, body: BodyParse)

  /** An API key that is neither empty nor a pair of quote characters. */
  predicate KeyConfigured(apiKey: string) {
    apiKey != "" && apiKey != "\"\""
  }

  /** The analysis is used exactly when the key is configured, the status is
      200 and the reply parsed. */
  predicate Answered(apiKey: string, reply: GeminiReply) {
    KeyConfigured(apiKey) && reply.Status? && reply.code == 200 && reply.body.Analysis?
  }

  const FallbackPrefix: string := "Unable to analyze conditions. Error: "

  /** The fixed assessment used whenever the analysis fails. */
  function FallbackAnalysis(errorMessage: string): (c: ObservingConditions)
    ensures !c.isGood && c.moonIllumination.None? && c.moonAltitude.None?
    ensures c.cloudCover == 50.0 && c.seeing == 2.0 && c.transparency == 15.0
    ensures |FallbackPrefix| <= |c.message| && c.message[..|FallbackPrefix|] == FallbackPrefix
    ensures |FallbackPrefix| <= |c.message| && c.message[|FallbackPrefix|..] == errorMessage
  {
    ObservingConditions(false, 50.0, 2.0, 15.0, None, None, FallbackPrefix + errorMessage)
  }

  /** The body of the `try` block: the parsed analysis, or the message of the
      exception it throws (absent when the exception has none). */
  function TryAnalyze(apiKey: string, reply: GeminiReply): (r: Result<ObservingConditions, Option<string>>)
    ensures r.Success? <==> Answered(apiKey, reply)
    ensures r.Success? ==>
              r.value.isGood == reply.body.isGood && r.value.cloudCover == reply.body.avgCloudCover
              && r.value.seeing == reply.body.avgSeeing && r.value.transparency == reply.body.avgTransparency
              && r.value.moonIllumination.None? && r.value.moonAltitude.None?
              && r.value.message == reply.body.description
    ensures !KeyConfigured(apiKey) ==> r == Failure(Some("Gemini API key not configured"))
    ensures KeyConfigured(apiKey) && reply.CallFailed? ==> r == Failure(reply.message)
    ensures KeyConfigured(apiKey) && reply.Status? && reply.code != 200 ==>
              r.Failure? && r.error.Some? && |r.error.value| >= 18 && r.error.value[..18] == "API returned code "
  {
    if !KeyConfigured(apiKey) then Failure(Some("Gemini API key not configured"))
    else match reply
      case CallFailed(m) => Failure(m)
      case Status(code, errorText, body) =>
        if code != 200 then
          Failure(Some("API returned code " + Text.Decimal(code) + ": " + errorText.GetOr("Unknown error")))
        else match body
          case Unparseable(m) => Failure(m)
          case Analysis(good, cloud, seeing, transparency, description) =>
            Success(ObservingConditions(good, cloud, seeing, transparency, None, None, description))
  }

  /** The analysis step: it never fails, answering with the parsed analysis
      or with the fallback. */
  function AnalyzeWithGemini(apiKey: string, reply: GeminiReply): (c: ObservingConditions)
    ensures c.moonIllumination.None? && c.moonAltitude.None?
    ensures Answered(apiKey, reply) ==>
              c.isGood == reply.body.isGood && c.cloudCover == reply.body.avgCloudCover
              && c.seeing == reply.body.avgSeeing && c.transparency == reply.body.avgTransparency
              && c.message == reply.body.description
    ensures !Answered(apiKey, reply) ==>
              !c.isGood && c.cloudCover == 50.0 && c.seeing == 2.0 && c.transparency == 15.0
              && |FallbackPrefix| <= |c.message| && c.message[..|FallbackPrefix|] == FallbackPrefix
    ensures !KeyConfigured(apiKey) ==> c.message == FallbackPrefix + "Gemini API key not configured"
    ensures KeyConfigured(apiKey) && (reply == CallFailed(None) || (reply.Status? && reply.code == 200 && reply.body == Unparseable(None))) ==>
              c.message == FallbackPrefix + "Unknown error"
  {
    match TryAnalyze(apiKey, reply)
    case Success(c) => c
    case Failure(m) => FallbackAnalysis(m.GetOr("Unknown error"))
  }

  /** One site's evaluation: summarise the night, then analyse the summary;
      `gemini` stands for the remote model answering a summary. */
  function EvaluateNightConditions(f: Forecast, sky: Option<Moon>, sunsetHour: int, sunriseHour: int,
                                   currentHour: int, apiKey: string,
                                   gemini: NightSummary -> GeminiReply): (c: ObservingConditions)
    ensures c.moonIllumination.None? && c.moonAltitude.None?
    ensures !KeyConfigured(apiKey) ==> c == FallbackAnalysis("Gemini API key not configured")
    ensures var reply := gemini(BuildNightDataSummary(f, sky, sunsetHour, sunriseHour, currentHour));
            Answered(apiKey, reply) ==>
              c.isGood == reply.body.isGood && c.cloudCover == reply.body.avgCloudCover
              && c.seeing == reply.body.avgSeeing && c.transparency == reply.body.avgTransparency
              && c.message == reply.body.description
    ensures var reply := gemini(BuildNightDataSummary(f, sky, sunsetHour, sunriseHour, currentHour));
            !Answered(apiKey, reply) ==>
              !c.isGood && c.cloudCover == 50.0 && c.seeing == 2.0 && c.transparency == 15.0
              && |FallbackPrefix| <= |c.message| && c.message[..|FallbackPrefix|] == FallbackPrefix
  {
    AnalyzeWithGemini(apiKey, gemini(BuildNightDataSummary(f, sky, sunsetHour, sunriseHour, currentHour)))
  }
}

=== FILE: locations.dfy ===
/** The fixed registry of observing sites and the enabled-site filter. */
module Locations {
  import opened Seqs

  /** An observing site; a site is enabled unless stated otherwise. */
  datatype Location = Location(name: string, latitude: real, longitude: real, enabled: bool := true)

  const IndianaDunes: Location := Location("Indiana Dunes", 41.66, -87.04, enabled := true)
  const Hebron: Location := Location("Hebron, IL", 42.47, -88.43, enabled := false)
  const Zion: Location := Location("Zion, IL", 42.45, -87.85, enabled := false)
  const AftonForest: Location := Location("Afton Forest Preserve", 41.83, -88.73, enabled := false)

  const AllLocations: seq<Location> := [IndianaDunes, Hebron, Zion, AftonForest]

  predicate IsEnabled(l: Location) {
    l.enabled
  }

  /** The sites that take part in a check, in registry order. */
  function EnabledLocations(all: seq<Location>): (r: seq<Location>)
    ensures |r| <= |all|
    ensures forall i :: 0 <= i < |r| ==> r[i] in all && r[i].enabled
    ensures forall i :: 0 <= i < |all| && all[i].enabled ==> all[i] in r
  {
    Filter(all, IsEnabled)
  }

  /** Filtering the registry keeps relative order: it commutes with
      concatenation. */
  lemma EnabledLocationsKeepOrder(a: seq<Location>, b: seq<Location>)
    ensures EnabledLocations(a + b) == EnabledLocations(a) + EnabledLocations(b)
  {
    FilterAppend(a, b, IsEnabled);
  }

  /** A site constructed without the flag is enabled. */
  lemma EnabledByDefault(name: string, latitude: real, longitude: real)
    ensures Location(name, latitude, longitude).enabled
  {
  }

  /** With the registry as shipped only Indiana Dunes is checked, and every
      site has valid coordinates. */
  lemma RegistryAsShipped()
    ensures EnabledLocations(AllLocations) == [IndianaDunes]
    ensures IndianaDunes.latitude == 41.66 && IndianaDunes.longitude == -87.04
    ensures forall l :: l in AllLocations ==>
              -90.0 <= l.latitude <= 90.0 && -180.0 <= l.longitude <= 180.0
  {
    assert AllLocations == [IndianaDunes] + [Hebron, Zion, AftonForest];
    FilterNone([Hebron, Zion, AftonForest], IsEnabled);
    assert Filter([IndianaDunes], IsEnabled) == [IndianaDunes];
    FilterAppend([IndianaDunes], [Hebron, Zion, AftonForest], IsEnabled);
  }
}

=== FILE: numerics.dfy ===
/** Kotlin's `Double` operations the model needs, over `real`: the `%`
    operator (IEEE remainder with a truncated quotient, so the result takes
    the sign of the dividend) and `toInt()` (truncation toward zero). */
module Numerics {

  /** `x.toInt()` for a finite `x`: rounds toward zero. */
  function TruncToInt(x: real): (n: int)
    ensures x >= 0.0 ==> 0 <= n && n as real <= x < n as real + 1.0
    ensures x < 0.0 ==> n <= 0 && n as real - 1.0 < x <= n as real
  {
    if x >= 0.0 then x.Floor else -((-x).Floor)
  }

  /** `x % m` on doubles: `x - m * q` where `q` is `x / m` truncated toward zero. */
  function TruncRem(x: real, m: real): (r: real)
    requires m > 0.0
    ensures x >= 0.0 ==> 0.0 <= r < m
    ensures x < 0.0 ==> -m < r <= 0.0
    ensures x < m && -m < x ==> r == x
  {
    var q := TruncToInt(x / m);
    DivBounds(x, m, q);
    x - m * q as real
  }

  /** Bounds on `x - m * q` when `q` is the truncated quotient. */
  lemma DivBounds(x: real, m: real, q: int)
    requires m > 0.0
    requires q == TruncToInt(x / m)
    ensures x >= 0.0 ==> 0.0 <= x - m * q as real < m
    ensures x < 0.0 ==> -m < x - m * q as real <= 0.0
    ensures x < m && -m < x ==> q == 0
  {
    if x >= 0.0 {
      DivBoundsNonneg(x, m, q);
    } else {
      DivBoundsNeg(x, m, q);
    }
    if x < m && -m < x {
      SmallQuotient(x, m);
    }
  }

  lemma DivBoundsNonneg(x: real, m: real, q: int)
    requires m > 0.0 && x >= 0.0
    requires q == TruncToInt(x / m)
    ensures 0.0 <= x - m * q as real < m
  {
    var d := x / m;
    Quotient(x, m);
    assert d >= 0.0;
    assert q as real <= d < q as real + 1.0;
    Between(x, m, d, q as real);
  }

  lemma DivBoundsNeg(x: real, m: real, q: int)
    requires m > 0.0 && x < 0.0
    requires q == TruncToInt(x / m)
    ensures -m < x - m * q as real <= 0.0
  {
    var d := x / m;
    Quotient(x, m);
    assert d < 0.0;
    assert q as real - 1.0 < d <= q as real;
    var lo := q as real - 1.0;
    Between(x, m, d, lo);
    Between(x, m, d, q as real);
    assert m * lo + m == m * q as real;
  }

  lemma SmallQuotient(x: real, m: real)
    requires m > 0.0 && -m < x < m
    ensures -1.0 < x / m < 1.0
  {
    var d := x / m;
    Quotient(x, m);
    Between(x, m, d, 0.0);
    Between(x, m, d, -1.0);
    Between(x, m, d, -2.0);
  }

  /** With `x == m * d`, `x` lies in the `m`-wide cell starting at `m * a`
      exactly when `d` lies in the unit cell starting at `a`. */
  lemma Between(x: real, m: real, d: real, a: real)
    requires m > 0.0 && x == m * d
    ensures a <= d <==> m * a <= x
    ensures a < d <==> m * a < x
    ensures d < a + 1.0 <==> x < m * a + m
  {
    var below := d - a;
    var above := a + 1.0 - d;
    assert m * below == x - m * a;
    assert m * above == m * a + m - x;
    if below > 0.0 {
      PosMulStrict(m, below);
    } else if below == 0.0 {
      assert m * below == 0.0;
    } else {
      PosMulStrict(m, -below);
      assert m * -below == -(m * below);
    }
    if above > 0.0 {
      PosMulStrict(m, above);
    } else {
      PosMul(m, -above);
      assert m * -above == -(m * above);
    }
  }

  lemma PosMul(m: real, t: real)
    requires m > 0.0 && t >= 0.0
    ensures m * t >= 0.0
  {
  }

  lemma PosMulStrict(m: real, t: real)
    requires m > 0.0 && t > 0.0
    ensures m * t > 0.0
  {
  }

  lemma Quotient(x: real, m: real)
    requires m > 0.0
    ensures m * (x / m) == x
  {
  }

  /** For a non-negative dividend Kotlin's remainder is the mathematical
      (floored) modulus: subtracting whole periods does not change it. */
  lemma {:induction false} TruncRemPeriodic(x: real, m: real, k: nat)
    requires m > 0.0 && x >= 0.0
    ensures TruncRem(x + m * k as real, m) == TruncRem(x, m)
  {
    var q := TruncToInt(x / m);
    var q' := TruncToInt((x + m * k as real) / m);
    assert (x + m * k as real) / m == x / m + k as real;
    assert q' == q + k;
  }
}

=== FILE: ranking.dfy ===
/** Stable descending sort by a real-valued key: Kotlin's `sortedByDescending`
    (which keeps equal keys in their original order) and SQL's
    `ORDER BY ... DESC` as the model evaluates it. */
module Ranking {
  import opened Seqs

  /** Keys never increase from left to right. */
  predicate SortedDesc<T>(s: seq<T>, key: T -> real) {
    forall i, j :: 0 <= i < j < |s| ==> key(s[i]) >= key(s[j])
  }

  /** Sorted by descending key, and among equal keys by ascending `tag`. */
  predicate SortedDescThenTag<T>(s: seq<T>, key: T -> real, tag: T -> int) {
    forall i, j :: 0 <= i < j < |s| ==>
      key(s[i]) > key(s[j]) || (key(s[i]) == key(s[j]) && tag(s[i]) < tag(s[j]))
  }

  /** `tag` strictly increases along `s`, as a catalog position does. */
  predicate TagIncreasing<T>(s: seq<T>, tag: T -> int) {
    forall i, j :: 0 <= i < j < |s| ==> tag(s[i]) < tag(s[j])
  }

  /** A smaller tag in front keeps the tags increasing. */
  lemma ConsTagIncreasing<T>(x: T, rest: seq<T>, tag: T -> int)
    requires TagIncreasing(rest, tag)
    requires forall i :: 0 <= i < |rest| ==> tag(x) < tag(rest[i])
    ensures TagIncreasing([x] + rest, tag)
  {
    var s := [x] + rest;
    forall i, j | 0 <= i < j < |s|
      ensures tag(s[i]) < tag(s[j])
    {
      if i > 0 {
        assert s[i] == rest[i - 1];
      }
      assert s[j] == rest[j - 1];
    }
  }

  /** Places `x` after every element whose key is at least its own. */
  function Insert<T>(l: seq<T>, x: T, key: T -> real): (r: seq<T>)
    requires SortedDesc(l, key)
    ensures SortedDesc(r, key)
    ensures multiset(r) == multiset(l) + multiset{x}
    ensures |r| == |l| + 1
    ensures r[0] == x || (|l| > 0 && r[0] == l[0])
    decreases |l|
  {
    if |l| == 0 then [x]
    else if key(l[0]) < key(x) then [x] + l
    else
      var rest := Insert(l[1..], x, key);
      assert l == [l[0]] + l[1..];
      assert key(l[0]) >= key(rest[0]);
      [l[0]] + rest
  }

  /** Insertion sort: later elements are inserted behind earlier equal keys. */
  function SortDesc<T>(s: seq<T>, key: T -> real): (r: seq<T>)
    ensures SortedDesc(r, key)
    ensures multiset(r) == multiset(s)
    ensures |r| == |s|
    decreases |s|
  {
    if |s| == 0 then []
    else
      assert s == s[..|s| - 1] + [s[|s| - 1]];
      Insert(SortDesc(s[..|s| - 1], key), s[|s| - 1], key)
  }

  /** Inserting an element whose tag exceeds every tag present keeps ties in tag order. */
  lemma {:induction false} InsertStable<T>(l: seq<T>, x: T, key: T -> real, tag: T -> int)
    requires SortedDesc(l, key)
    requires SortedDescThenTag(l, key, tag)
    requires forall k :: 0 <= k < |l| ==> tag(l[k]) < tag(x)
    ensures SortedDescThenTag(Insert(l, x, key), key, tag)
    decreases |l|
  {
    if |l| > 0 && key(l[0]) >= key(x) {
      InsertStable(l[1..], x, key, tag);
      var rest := Insert(l[1..], x, key);
      var r := [l[0]] + rest;
      assert r == Insert(l, x, key);
      forall k | 0 <= k < |rest|
        ensures key(l[0]) > key(rest[k]) || (key(l[0]) == key(rest[k]) && tag(l[0]) < tag(rest[k]))
      {
        assert rest[k] in multiset(rest);
        assert rest[k] in multiset(l[1..]) || rest[k] == x;
        if rest[k] != x {
          var m :| 0 <= m < |l[1..]| && l[1..][m] == rest[k];
          assert l[1 + m] == rest[k];
        }
      }
    } else if |l| > 0 {
      forall k | 0 <= k < |l|
        ensures key(x) > key(l[k])
      {
        assert key(l[0]) >= key(l[k]);
      }
    }
  }

  /** The sort is stable: equal keys stay in their original (tag) order. */
  lemma {:induction false} SortStable<T>(s: seq<T>, key: T -> real, tag: T -> int)
    requires TagIncreasing(s, tag)
    ensures SortedDescThenTag(SortDesc(s, key), key, tag)
    decreases |s|
  {
    if |s| > 0 {
      var init := s[..|s| - 1];
      SortStable(init, key, tag);
      var sorted := SortDesc(init, key);
      forall k | 0 <= k < |sorted|
        ensures tag(sorted[k]) < tag(s[|s| - 1])
      {
        assert sorted[k] in multiset(sorted);
        assert sorted[k] in multiset(init);
        var m :| 0 <= m < |init| && init[m] == sorted[k];
      }
      InsertStable(sorted, s[|s| - 1], key, tag);
    }
  }

  /** The `n` elements with the largest keys, largest first: a descending
      sort followed by a limit. Anything left out has a key no larger than
      every key kept. */
  function Top<T>(s: seq<T>, n: nat, key: T -> real): (top: seq<T>)
    ensures |top| == if |s| < n then |s| else n
    ensures forall i :: 0 <= i < |top| ==> top[i] in s
    ensures multiset(top) <= multiset(s)
    ensures SortedDesc(top, key)
    ensures forall k :: 0 <= k < |s| ==>
              s[k] in top || (|top| == n && forall i :: 0 <= i < |top| ==> key(s[k]) <= key(top[i]))
  {
    TakeSortedFromInput(s, n, key);
    TakeSortedKeepsLargest(s, n, key);
    Take(SortDesc(s, key), n)
  }

  /** A prefix of the sorted input holds input elements, none repeated
      beyond its count in the input. */
  lemma TakeSortedFromInput<T>(s: seq<T>, n: nat, key: T -> real)
    ensures var top := Take(SortDesc(s, key), n);
            multiset(top) <= multiset(s) && forall i :: 0 <= i < |top| ==> top[i] in s
  {
    var sorted := SortDesc(s, key);
    var top := Take(sorted, n);
    assert sorted == top + sorted[|top|..];
    forall i | 0 <= i < |top|
      ensures top[i] in s
    {
      assert top[i] in multiset(top);
      assert top[i] in multiset(s);
    }
  }

  /** An element missing from the sorted prefix has a key no larger than any
      key in it, and the prefix is full. */
  lemma TakeSortedKeepsLargest<T>(s: seq<T>, n: nat, key: T -> real)
    ensures var top := Take(SortDesc(s, key), n);
            forall k :: 0 <= k < |s| ==>
              s[k] in top || (|top| == n && forall i :: 0 <= i < |top| ==> key(s[k]) <= key(top[i]))
  {
    var sorted := SortDesc(s, key);
    var top := Take(sorted, n);
    forall k | 0 <= k < |s|
      ensures s[k] in top || (|top| == n && forall i :: 0 <= i < |top| ==> key(s[k]) <= key(top[i]))
    {
      assert s[k] in multiset(sorted);
      var m :| 0 <= m < |sorted| && sorted[m] == s[k];
      if m < n {
        assert top[m] == sorted[m];
      } else {
        forall i | 0 <= i < |top|
          ensures key(s[k]) <= key(top[i])
        {
          assert top[i] == sorted[i];
        }
      }
    }
  }

  /** An input element is kept, or the top is full of elements whose keys
      are no smaller than its key. */
  lemma KeptOrOutranked<T>(s: seq<T>, n: nat, key: T -> real, x: T)
    requires x in s
    ensures var top := Top(s, n, key);
            x in top || (|top| == n && forall i :: 0 <= i < |top| ==> key(x) <= key(top[i]))
  {
    var k :| 0 <= k < |s| && s[k] == x;
  }

  /** With tags increasing along the input, the kept elements are ordered
      by descending key and, among equal keys, in input order. */
  lemma TopStable<T>(s: seq<T>, n: nat, key: T -> real, tag: T -> int)
    requires TagIncreasing(s, tag)
    ensures SortedDescThenTag(Top(s, n, key), key, tag)
  {
    SortStable(s, key, tag);
    var sorted := SortDesc(s, key);
    var top := Top(s, n, key);
    assert forall i :: 0 <= i < |top| ==> top[i] == sorted[i];
  }

  /** With tags increasing along the input, an element left out loses to
      every kept element: on its key, or on a tie to an earlier element.
      Among equal keys at the cut the earliest ones are kept. */
  lemma TopPrefersEarlierTies<T>(s: seq<T>, n: nat, key: T -> real, tag: T -> int, x: T)
    requires TagIncreasing(s, tag)
    requires x in s && x !in Top(s, n, key)
    ensures var top := Top(s, n, key);
            forall i :: 0 <= i < |top| ==>
              key(x) < key(top[i]) || (key(x) == key(top[i]) && tag(top[i]) < tag(x))
  {
    SortStable(s, key, tag);
    var sorted := SortDesc(s, key);
    var top := Top(s, n, key);
    assert x in multiset(s);
    assert x in multiset(sorted);
    var m :| 0 <= m < |sorted| && sorted[m] == x;
    assert forall i :: 0 <= i < |top| ==> top[i] == sorted[i];
    assert |top| <= m;
  }

  /** The same, for an element whose tag no kept element carries. */
  lemma TopPrefersEarlierTag<T>(s: seq<T>, n: nat, key: T -> real, tag: T -> int, x: T)
    requires TagIncreasing(s, tag)
    requires x in s
    requires var top := Top(s, n, key); forall i :: 0 <= i < |top| ==> tag(top[i]) != tag(x)
    ensures var top := Top(s, n, key);
            forall i :: 0 <= i < |top| ==>
              key(x) < key(top[i]) || (key(x) == key(top[i]) && tag(top[i]) < tag(x))
  {
    var top := Top(s, n, key);
    assert forall i :: 0 <= i < |top| ==> top[i] != x;
    TopPrefersEarlierTies(s, n, key, tag, x);
  }
}

=== FILE: scheduler.dfy ===
/** The background scheduler: three daily checks, each first run at the next
    occurrence of its hour. */
module Scheduler {
  import opened Clock

  /** A periodic work request: unique name, period, and the delay before the
      first run. */
  datatype WorkRequest = WorkRequest(name: string, periodHours: int, initialDelay: int)

  /** The repeat period of every check. */
  const PeriodHours: int := 24

  /** The request for a daily check at `hour`:00:00 local time, seen from
      instant `now`: today's occurrence if it has not passed, else
      tomorrow's. The milliseconds of `now` carry over to the target. */
  function ScheduleCheckAt(now: int, zone: int, hour: Hour, workName: string): (w: WorkRequest)
    ensures w.name == workName && w.periodHours == 24
    ensures 0 <= w.initialDelay < DayMillis
    ensures Fields(now + w.initialDelay, zone) == ClockFields(hour, 0, 0)
    ensures (now + w.initialDelay + zone) % SecondMillis == (now + zone) % SecondMillis
    ensures w.initialDelay == 0 <==> Fields(now, zone) == ClockFields(hour, 0, 0)
  {
    var today := AtHourSharp(now, zone, hour);
    OnTheHour(now, zone, hour);
    if today < now then
      FieldsNextDay(today, zone);
      WorkRequest(workName, PeriodHours, today + DayMillis - now)
    else
      WorkRequest(workName, PeriodHours, today - now)
  }

  /** The work manager's unique periodic work, by name. */
  type WorkQueue = map<string, WorkRequest>

  /** `enqueueUniquePeriodicWork` with the `KEEP` policy: a request whose
      name is already queued is dropped. */
  function EnqueueKeep(queue: WorkQueue, w: WorkRequest): (q: WorkQueue)
    ensures w.name in q
    ensures w.name in queue ==> q == queue
    ensures w.name !in queue ==> q[w.name] == w
    ensures forall n :: n in queue ==> n in q && q[n] == queue[n]
    ensures forall n :: n in q ==> n in queue || n == w.name
  {
    if w.name in queue then queue else queue[w.name := w]
  }

  /** `scheduleWeatherChecks`: the morning, midday and afternoon checks. */
  function ScheduleWeatherChecks(queue: WorkQueue, now: int, zone: int): (q: WorkQueue)
    ensures "morning_check" in q && "midday_check" in q && "afternoon_check" in q
    ensures forall n :: n in queue ==> n in q && q[n] == queue[n]
    ensures forall n :: n in q ==> n in queue || n == "morning_check" || n == "midday_check" || n == "afternoon_check"
    ensures "morning_check" !in queue ==> q["morning_check"] == ScheduleCheckAt(now, zone, 6, "morning_check")
    ensures "midday_check" !in queue ==> q["midday_check"] == ScheduleCheckAt(now, zone, 11, "midday_check")
    ensures "afternoon_check" !in queue ==> q["afternoon_check"] == ScheduleCheckAt(now, zone, 16, "afternoon_check")
  {
    var morning := EnqueueKeep(queue, ScheduleCheckAt(now, zone, 6, "morning_check"));
    var midday := EnqueueKeep(morning, ScheduleCheckAt(now, zone, 11, "midday_check"));
    EnqueueKeep(midday, ScheduleCheckAt(now, zone, 16, "afternoon_check"))
  }

  /** Scheduling again, at any later time, changes nothing: the checks keep
      their first schedule. */
  lemma RescheduleKeepsQueue(queue: WorkQueue, now: int, later: int, zone: int)
    ensures var q := ScheduleWeatherChecks(queue, now, zone);
            ScheduleWeatherChecks(q, later, zone) == q
  {
    var q := ScheduleWeatherChecks(queue, now, zone);
    var q' := ScheduleWeatherChecks(q, later, zone);
    assert q'.Keys == q.Keys;
  }
}

=== FILE: selection.dfy ===
/** The manual check: score every enabled site, pick the best one, rank
    tonight's catalog targets for it, and save the check. */
module Selection {
  import opened Wrappers
  import opened Ranking
  import opened Seqs
  import opened Clock
  import opened Sky
  import opened Visibility
  import opened Catalog
  import opened Locations
  import opened Evaluator
  import opened CheckLog

  // ---------------------------------------------------------------------
  // Site score

  /** A site's score: 100, less the cloud cover, plus five points per unit
      of seeing and half a point per unit of transparency. */
  function LocationScore(c: ObservingConditions): real {
    100.0 - c.cloudCover + c.seeing * 5.0 + c.transparency / 2.0
  }

  /** Less cloud, better seeing and a higher transparency value never lower
      the score, and the score ties only when all three tie. */
  lemma LocationScoreRanksConditions(c: ObservingConditions, d: ObservingConditions)
    requires c.cloudCover <= d.cloudCover && c.seeing >= d.seeing && c.transparency >= d.transparency
    ensures LocationScore(c) >= LocationScore(d)
    ensures LocationScore(c) == LocationScore(d) <==>
              c.cloudCover == d.cloudCover && c.seeing == d.seeing && c.transparency == d.transparency
  {
  }

  /** The weights: one point per unit of cloud cover, five per unit of
      seeing and a half per unit of transparency. With `FallbackScore` this
      fixes the score of every assessment. */
  lemma LocationScoreWeights(c: ObservingConditions, d: ObservingConditions)
    ensures LocationScore(c) - LocationScore(d)
            == (d.cloudCover - c.cloudCover) + 5.0 * (c.seeing - d.seeing) + (c.transparency - d.transparency) / 2.0
  {
  }

  /** A site whose analysis failed scores 67.5. */
  lemma FallbackScore(message: string)
    ensures LocationScore(FallbackAnalysis(message)) == 67.5
  {
  }

  // ---------------------------------------------------------------------
  // Phase one: scoring the sites

  /** What a sun-times request for a site yielded: a failed request, two
      timestamps that parsed to local hours, or a timestamp that did not
      parse. */
  datatype SunTimesReply =
    | SunTimesFailed
    | SunTimesParsed(sunsetHour: Hour, sunriseHour: Hour)
    | SunTimesUnparseable(message: Option<string>)

  const DefaultSunsetHour: Hour := 17
  const DefaultSunriseHour: Hour := 7

  /** The (sunset, sunrise) hours used for a reply: the parsed hours, or the
      defaults when the request failed; none when parsing throws. */
  function SunHours(reply: SunTimesReply): (hours: Option<(Hour, Hour)>)
    ensures hours.None? <==> reply.SunTimesUnparseable?
    ensures reply.SunTimesFailed? ==> hours == Some((17, 7))
    ensures reply.SunTimesParsed? ==> hours == Some((reply.sunsetHour, reply.sunriseHour))
  {
    match reply
    case SunTimesFailed => Some((DefaultSunsetHour, DefaultSunriseHour))
    case SunTimesParsed(sunset, sunrise) => Some((sunset, sunrise))
    case SunTimesUnparseable(_) => None
  }

  /** The outcome of the forecast request. */
  datatype ForecastReply = ForecastFailed(message: Option<string>) | ForecastMissing | ForecastReceived(forecast: Forecast)

  /** Everything one site's evaluation reads from outside: the three
      requests' outcomes and the local hour when the evaluator runs. */
  datatype SiteReplies = SiteReplies(sunTimes: SunTimesReply, forecast: ForecastReply, sky: Option<Moon>, localHour: Hour)

  /** The outside world of the site phase: each site's replies, the model's
      API key, and the model's answer to a night summary. */
  datatype World = World(site: Location -> SiteReplies, apiKey: string, gemini: NightSummary -> GeminiReply)

  /** A site that was scored. */
  datatype Candidate = Candidate(location: Location, conditions: ObservingConditions, score: real)

  /** A site is scored unless a sun time fails to parse or the forecast
      request fails or returns nothing. */
  predicate SiteScores(r: SiteReplies) {
    SunHours(r.sunTimes).Some? && r.forecast.ForecastReceived?
  }

  /** One iteration of the site loop; `None` where the loop logs the problem
      and moves on to the next site. */
  function AssessSite(loc: Location, w: World): (c: Option<Candidate>)
    ensures c.Some? <==> SiteScores(w.site(loc))
    ensures c.Some? ==> c.value.location == loc && c.value.score == LocationScore(c.value.conditions)
    ensures c.Some? ==>
              var r := w.site(loc);
              var (sunset, sunrise) := SunHours(r.sunTimes).value;
              c.value.conditions == EvaluateNightConditions(r.forecast.forecast, r.sky, sunset, sunrise,
                                                            r.localHour, w.apiKey, w.gemini)
  {
    var r := w.site(loc);
    match SunHours(r.sunTimes)
    case None => None
    case Some((sunset, sunrise)) =>
      match r.forecast
      case ForecastReceived(f) =>
        var conditions := EvaluateNightConditions(f, r.sky, sunset, sunrise, r.localHour, w.apiKey, w.gemini);
        Some(Candidate(loc, conditions, LocationScore(conditions)))
      case _ => None
  }

  /** The scored sites, in the order the sites are visited. */
  function AssessSites(locs: seq<Location>, w: World): (cs: seq<Candidate>)
    ensures |cs| <= |locs|
    ensures forall i :: 0 <= i < |cs| ==> cs[i].location in locs && AssessSite(cs[i].location, w) == Some(cs[i])
    ensures forall k :: 0 <= k < |locs| && SiteScores(w.site(locs[k])) ==> AssessSite(locs[k], w).value in cs
    decreases |locs|
  {
    if |locs| == 0 then []
    else
      var rest := AssessSites(locs[1..], w);
      match AssessSite(locs[0], w)
      case Some(c) => [c] + rest
      case None => rest
  }

  /** Visiting sites in turn: the candidates of a concatenation are the
      concatenated candidates, so earlier sites stay earlier. */
  lemma {:induction false} AssessSitesAppend(a: seq<Location>, b: seq<Location>, w: World)
    ensures AssessSites(a + b, w) == AssessSites(a, w) + AssessSites(b, w)
    decreases |a|
  {
    if |a| == 0 {
      assert a + b == b;
    } else {
      assert (a + b)[1..] == a[1..] + b;
      AssessSitesAppend(a[1..], b, w);
    }
  }

  /** Candidate `i` has the highest score, and every earlier candidate a
      strictly lower one: what `maxByOrNull` picks. */
  predicate IsFirstMaximum(cs: seq<Candidate>, i: int) {
    && 0 <= i < |cs|
    && (forall j :: 0 <= j < |cs| ==> cs[j].score <= cs[i].score)
    && (forall j :: 0 <= j < i ==> cs[j].score < cs[i].score)
  }

  /** There is at most one first maximum. */
  lemma FirstMaximumUnique(cs: seq<Candidate>, i: int, j: int)
    requires IsFirstMaximum(cs, i) && IsFirstMaximum(cs, j)
    ensures i == j
  {
    assert cs[i].score == cs[j].score;
  }

  /** `maxByOrNull { it.third }`: the index of the best candidate, replacing
      the current best only on a strictly higher score. */
  method PickBest(cs: seq<Candidate>) returns (best: Option<nat>)
    ensures best.None? <==> |cs| == 0
    ensures best.Some? ==> IsFirstMaximum(cs, best.value)
  {
    if |cs| == 0 {
      return None;
    }
    var maxIndex := 0;
    var maxValue := cs[0].score;
    var k := 1;
    while k < |cs|
      invariant 1 <= k <= |cs| && 0 <= maxIndex < k && maxValue == cs[maxIndex].score
      invariant forall j :: 0 <= j < k ==> cs[j].score <= maxValue
      invariant forall j :: 0 <= j < maxIndex ==> cs[j].score < maxValue
    {
      var v := cs[k].score;
      if maxValue < v {
        maxIndex := k;
        maxValue := v;
      }
      k := k + 1;
    }
    return Some(maxIndex);
  }

  // ---------------------------------------------------------------------
  // Phase two: ranking targets for the best site

  /** A target kept for the report, with its position in the assembled
      target list. */
  datatype Recommendation = Recommendation(
    catalogIndex: nat,
    target: Target,
    transitTime: int,
    peakAltitude: real,
    qualityHours: real)

  /** Only targets with both coordinates are scored. */
  predicate Positioned(t: Target) {
    t.rightAscension.Some? && t.declination.Some?
  }

  /** Everything target scoring reads: the chosen site, tonight's window,
      the zone offset, the clock readings and the trigonometry. */
  datatype Session = Session(site: Location, window: NightWindow, zone: int, utcNow: int, now: int, trig: Trig)

  /** Quality hours of a positioned target over the rest of tonight. */
  function TargetQuality(s: Session, t: Target): real
    requires Positioned(t)
  {
    QualityHours(s.trig, Observer(s.site.latitude, s.site.longitude, s.zone),
                 Position(t.rightAscension.value, t.declination.value),
                 s.window.effectiveStart, s.window.end)
  }

  /** The `mapNotNull` step: a target is kept when it is positioned and
      scores at least one quality hour. */
  function AssessTarget(s: Session, index: nat, t: Target): (r: Option<Recommendation>)
    ensures r.Some? <==> Positioned(t) && TargetQuality(s, t) >= 1.0
    ensures r.Some? ==>
              && r.value.catalogIndex == index && r.value.target == t
              && r.value.qualityHours == TargetQuality(s, t)
              && r.value.transitTime == TransitTime(t.rightAscension.value, s.site.longitude, s.utcNow, s.now)
              && r.value.peakAltitude == PeakAltitude(t.declination.value, s.site.latitude)
  {
    if !Positioned(t) then None
    else
      var ra := t.rightAscension.value;
      var dec := t.declination.value;
      var transit := TransitTime(ra, s.site.longitude, s.utcNow, s.now);
      var peak := PeakAltitude(dec, s.site.latitude);
      var quality := TargetQuality(s, t);
      if quality >= 1.0 then Some(Recommendation(index, t, transit, peak, quality)) else None
  }

  function CatalogIndex(r: Recommendation): int {
    r.catalogIndex
  }

  /** The kept targets among `ts[k..]`, in list order. */
  function AssessFrom(s: Session, ts: seq<Target>, k: nat): (rs: seq<Recommendation>)
    requires k <= |ts|
    ensures |rs| <= |ts| - k
    ensures forall i :: 0 <= i < |rs| ==>
              k <= rs[i].catalogIndex < |ts| && AssessTarget(s, rs[i].catalogIndex, ts[rs[i].catalogIndex]) == Some(rs[i])
    ensures forall j :: k <= j < |ts| && AssessTarget(s, j, ts[j]).Some? ==> AssessTarget(s, j, ts[j]).value in rs
    ensures TagIncreasing(rs, CatalogIndex)
    decreases |ts| - k
  {
    if k == |ts| then []
    else
      var rest := AssessFrom(s, ts, k + 1);
      match AssessTarget(s, k, ts[k])
      case Some(r) =>
        ConsTagIncreasing(r, rest, CatalogIndex);
        [r] + rest
      case None => rest
  }

  function QualityKey(r: Recommendation): real {
    r.qualityHours
  }

  /** How many targets are reported. */
  const MaxRecommendations: nat := 5

  /** The recommendations for the assembled targets `ts`. */
  function RecommendTargets(s: Session, ts: seq<Target>): (top: seq<Recommendation>)
    ensures |top| <= MaxRecommendations
    ensures forall i :: 0 <= i < |top| ==>
              && top[i].catalogIndex < |ts| && top[i].target == ts[top[i].catalogIndex]
              && Positioned(top[i].target) && top[i].qualityHours >= 1.0
              && top[i].qualityHours == TargetQuality(s, top[i].target)
    ensures forall i :: 0 <= i < |top| ==> AssessTarget(s, top[i].catalogIndex, top[i].target) == Some(top[i])
    ensures SortedDescThenTag(top, QualityKey, CatalogIndex)
    ensures forall k :: 0 <= k < |ts| && Positioned(ts[k]) && TargetQuality(s, ts[k]) >= 1.0 ==>
              (exists i :: 0 <= i < |top| && top[i].catalogIndex == k) ||
              (|top| == MaxRecommendations && forall i :: 0 <= i < |top| ==> top[i].qualityHours >= TargetQuality(s, ts[k]))
    ensures UnreportedLose(s, ts, top)
  {
    RecommendedTargets(s, ts);
    Top(AssessFrom(s, ts, 0), MaxRecommendations, QualityKey)
  }

  /** The facts behind `RecommendTargets`, about the ranked assessments. */
  lemma RecommendedTargets(s: Session, ts: seq<Target>)
    ensures var top := Top(AssessFrom(s, ts, 0), MaxRecommendations, QualityKey);
            |top| <= MaxRecommendations
    ensures var top := Top(AssessFrom(s, ts, 0), MaxRecommendations, QualityKey);
            forall i :: 0 <= i < |top| ==>
                && top[i].catalogIndex < |ts| && top[i].target == ts[top[i].catalogIndex]
                && Positioned(top[i].target) && top[i].qualityHours >= 1.0
                && top[i].qualityHours == TargetQuality(s, top[i].target)
    ensures var top := Top(AssessFrom(s, ts, 0), MaxRecommendations, QualityKey);
            forall i :: 0 <= i < |top| ==> AssessTarget(s, top[i].catalogIndex, top[i].target) == Some(top[i])
    ensures var top := Top(AssessFrom(s, ts, 0), MaxRecommendations, QualityKey);
            SortedDescThenTag(top, QualityKey, CatalogIndex)
    ensures var top := Top(AssessFrom(s, ts, 0), MaxRecommendations, QualityKey);
            forall k :: 0 <= k < |ts| && Positioned(ts[k]) && TargetQuality(s, ts[k]) >= 1.0 ==>
                (exists i :: 0 <= i < |top| && top[i].catalogIndex == k) ||
                (|top| == MaxRecommendations && forall i :: 0 <= i < |top| ==> top[i].qualityHours >= TargetQuality(s, ts[k]))
    ensures UnreportedLose(s, ts, Top(AssessFrom(s, ts, 0), MaxRecommendations, QualityKey))
  {
    var assessed := AssessFrom(s, ts, 0);
    TiesGoToEarlierTargets(s, ts);
    TopStable(assessed, MaxRecommendations, QualityKey, CatalogIndex);
    KeptTargets(s, ts, Top(assessed, MaxRecommendations, QualityKey));
    QualifyingTargets(s, ts);
  }

  /** What every reported target satisfies. */
  lemma KeptTargets(s: Session, ts: seq<Target>, top: seq<Recommendation>)
    requires forall i :: 0 <= i < |top| ==> top[i] in AssessFrom(s, ts, 0)
    ensures forall i :: 0 <= i < |top| ==>
              && top[i].catalogIndex < |ts| && top[i].target == ts[top[i].catalogIndex]
              && Positioned(top[i].target) && top[i].qualityHours >= 1.0
              && top[i].qualityHours == TargetQuality(s, top[i].target)
    ensures forall i :: 0 <= i < |top| ==> AssessTarget(s, top[i].catalogIndex, top[i].target) == Some(top[i])
  {
    forall i | 0 <= i < |top|
      ensures top[i].catalogIndex < |ts| && top[i].target == ts[top[i].catalogIndex]
      ensures Positioned(top[i].target) && top[i].qualityHours >= 1.0
      ensures top[i].qualityHours == TargetQuality(s, top[i].target)
      ensures AssessTarget(s, top[i].catalogIndex, top[i].target) == Some(top[i])
    {
      KeptTarget(s, ts, top[i]);
    }
  }

  /** Every qualifying target is reported, or five at least as good are. */
  lemma QualifyingTargets(s: Session, ts: seq<Target>)
    ensures var top := Top(AssessFrom(s, ts, 0), MaxRecommendations, QualityKey);
            forall k :: 0 <= k < |ts| && Positioned(ts[k]) && TargetQuality(s, ts[k]) >= 1.0 ==>
              (exists i :: 0 <= i < |top| && top[i].catalogIndex == k) ||
              (|top| == MaxRecommendations && forall i :: 0 <= i < |top| ==> top[i].qualityHours >= TargetQuality(s, ts[k]))
  {
    forall k | 0 <= k < |ts| && Positioned(ts[k]) && TargetQuality(s, ts[k]) >= 1.0
      ensures var top := Top(AssessFrom(s, ts, 0), MaxRecommendations, QualityKey);
              (exists i :: 0 <= i < |top| && top[i].catalogIndex == k) ||
              (|top| == MaxRecommendations && forall i :: 0 <= i < |top| ==> top[i].qualityHours >= TargetQuality(s, ts[k]))
    {
      QualifyingTarget(s, ts, k);
    }
  }

  /** What a kept target satisfies. */
  lemma KeptTarget(s: Session, ts: seq<Target>, r: Recommendation)
    requires r in AssessFrom(s, ts, 0)
    ensures r.catalogIndex < |ts| && r.target == ts[r.catalogIndex]
    ensures Positioned(r.target) && r.qualityHours >= 1.0 && r.qualityHours == TargetQuality(s, r.target)
    ensures AssessTarget(s, r.catalogIndex, r.target) == Some(r)
  {
    var rs := AssessFrom(s, ts, 0);
    var m :| 0 <= m < |rs| && rs[m] == r;
  }

  /** A qualifying target is reported, or five targets at least as good are. */
  lemma QualifyingTarget(s: Session, ts: seq<Target>, k: nat)
    requires k < |ts| && Positioned(ts[k]) && TargetQuality(s, ts[k]) >= 1.0
    ensures var top := Top(AssessFrom(s, ts, 0), MaxRecommendations, QualityKey);
            (exists i :: 0 <= i < |top| && top[i].catalogIndex == k) ||
            (|top| == MaxRecommendations && forall i :: 0 <= i < |top| ==> top[i].qualityHours >= TargetQuality(s, ts[k]))
  {
    var assessed := AssessFrom(s, ts, 0);
    var top := Top(assessed, MaxRecommendations, QualityKey);
    var r := AssessTarget(s, k, ts[k]).value;
    assert r in assessed;
    KeptOrOutranked(assessed, MaxRecommendations, QualityKey, r);
    if r in top {
      var i :| 0 <= i < |top| && top[i] == r;
    }
  }

  /** `r` beats a target of quality `quality` at catalog position `k`: it
      scores more, or scores the same and comes earlier in the catalog. */
  predicate Outranks(r: Recommendation, quality: real, k: int) {
    r.qualityHours > quality || (r.qualityHours == quality && r.catalogIndex < k)
  }

  /** Every qualifying target of `ts` missing from `top` loses to each
      reported target. */
  predicate UnreportedLose(s: Session, ts: seq<Target>, top: seq<Recommendation>) {
    forall k :: 0 <= k < |ts| && Positioned(ts[k]) && TargetQuality(s, ts[k]) >= 1.0
                && (forall i :: 0 <= i < |top| ==> top[i].catalogIndex != k) ==>
      forall i :: 0 <= i < |top| ==> Outranks(top[i], TargetQuality(s, ts[k]), k)
  }

  /** A qualifying target left out loses to every reported one: on quality,
      or on a tie to an earlier catalog entry. */
  lemma TiesGoToEarlierTargets(s: Session, ts: seq<Target>)
    ensures UnreportedLose(s, ts, Top(AssessFrom(s, ts, 0), MaxRecommendations, QualityKey))
  {
    var assessed := AssessFrom(s, ts, 0);
    var top := Top(assessed, MaxRecommendations, QualityKey);
    forall k | 0 <= k < |ts| && Positioned(ts[k]) && TargetQuality(s, ts[k]) >= 1.0
               && (forall i :: 0 <= i < |top| ==> top[i].catalogIndex != k)
      ensures forall i :: 0 <= i < |top| ==> Outranks(top[i], TargetQuality(s, ts[k]), k)
    {
      var r := AssessTarget(s, k, ts[k]).value;
      assert r in assessed;
      LeftOutLoses(assessed, r);
    }
  }

  /** An assessment missing from the top five loses to each of them. */
  lemma LeftOutLoses(assessed: seq<Recommendation>, r: Recommendation)
    requires TagIncreasing(assessed, CatalogIndex) && r in assessed
    requires var top := Top(assessed, MaxRecommendations, QualityKey);
             forall i :: 0 <= i < |top| ==> top[i].catalogIndex != r.catalogIndex
    ensures var top := Top(assessed, MaxRecommendations, QualityKey);
            forall i :: 0 <= i < |top| ==> Outranks(top[i], r.qualityHours, r.catalogIndex)
  {
    TopPrefersEarlierTag(assessed, MaxRecommendations, QualityKey, CatalogIndex, r);
  }

  /** How target ranking ended for the best site. */
  datatype TargetPhase =
    | NotGoodEnough
    | TargetsAborted(message: Option<string>)
    | Ranked(targets: seq<Recommendation>)

  /** The clock readings and outside data the target phase reads. */
  datatype TargetInputs = TargetInputs(
    sunTimes: Location -> SunTimesReply,
    month: int,
    lists: string -> ListFetch,
    now: int,
    utcNow: int,
    zone: int,
    trig: Trig)

  /** `calculateTargetsForLocation`: nothing to do on a poor night; else the
      session from the site's sun times (17:00 to 07:00 when the request
      fails), the month's seasonal targets, and their ranking. A sun time
      that fails to parse aborts the phase. */
  function CalculateTargetsForLocation(site: Location, conditions: ObservingConditions, inputs: TargetInputs): (p: TargetPhase)
    ensures p.NotGoodEnough? <==> !conditions.isGood
    ensures p.TargetsAborted? <==> conditions.isGood && inputs.sunTimes(site).SunTimesUnparseable?
    ensures p.Ranked? ==>
              var (sunset, sunrise) := SunHours(inputs.sunTimes(site)).value;
              var window := ResolveNightWindow(inputs.now, inputs.zone, sunset, sunrise);
              p.targets == RecommendTargets(Session(site, window, inputs.zone, inputs.utcNow, inputs.now, inputs.trig),
                                            AssembleTargets(SeasonListIds(inputs.month), inputs.lists))
  {
    if !conditions.isGood then NotGoodEnough
    else
      match inputs.sunTimes(site)
      case SunTimesUnparseable(m) => TargetsAborted(m)
      case _ =>
        var (sunset, sunrise) := SunHours(inputs.sunTimes(site)).value;
        var window := ResolveNightWindow(inputs.now, inputs.zone, sunset, sunrise);
        var session := Session(site, window, inputs.zone, inputs.utcNow, inputs.now, inputs.trig);
        Ranked(RecommendTargets(session, AssembleTargets(SeasonListIds(inputs.month), inputs.lists)))
  }

  // ---------------------------------------------------------------------
  // The whole check

  /** How a manual check ended. An aborted target phase leaves the check
      unsaved. */
  datatype CheckReport =
    | NoSiteScored
    | Aborted(best: Candidate, message: Option<string>)
    | Completed(best: Candidate, targets: TargetPhase, record: CheckRecord)

  /** The row saved for the best site at `checkTime`. */
  function SavedRecord(best: Candidate, checkTime: int): (r: CheckRecord)
    ensures r.id == 0 && r.locationName == best.location.name && r.checkTime == checkTime
    ensures r.isGood == best.conditions.isGood && r.message == best.conditions.message
    ensures r.cloudCover == best.conditions.cloudCover && r.seeing == best.conditions.seeing
            && r.transparency == best.conditions.transparency
    ensures r.moonIllumination.None? && r.moonAltitude.None? && r.recommendedTargets.None?
  {
    CheckRecord(0, best.location.name, checkTime, best.conditions.isGood,
                best.conditions.cloudCover, best.conditions.seeing, best.conditions.transparency,
                None, None, best.conditions.message, None)
  }

  /** `performManualCheck` at instant `currentTime` against `table`: returns
      the report and the table afterwards. */
  method PerformManualCheck(w: World, inputs: TargetInputs, currentTime: int, table: Table)
    returns (report: CheckReport, table': Table)
    ensures var cs := AssessSites(EnabledLocations(AllLocations), w);
            report.NoSiteScored? <==> |cs| == 0
    ensures report.NoSiteScored? <==>
              forall k :: 0 <= k < |EnabledLocations(AllLocations)| ==> !SiteScores(w.site(EnabledLocations(AllLocations)[k]))
    ensures !report.NoSiteScored? ==>
              var cs := AssessSites(EnabledLocations(AllLocations), w);
              exists i :: IsFirstMaximum(cs, i) && cs[i] == report.best
    ensures report.Aborted? ==>
              table' == table && report.best.conditions.isGood &&
              inputs.sunTimes(report.best.location).SunTimesUnparseable?
    ensures report.Completed? ==>
              && report.targets == CalculateTargetsForLocation(report.best.location, report.best.conditions, inputs)
              && report.record == SavedRecord(report.best, currentTime)
              && table' == InsertCheck(table, report.record)
    ensures report.NoSiteScored? ==> table' == table
    ensures !report.NoSiteScored? ==>
              (report.Aborted? <==>
                 CalculateTargetsForLocation(report.best.location, report.best.conditions, inputs).TargetsAborted?)
  {
    var sites := EnabledLocations(AllLocations);
    var cs := AssessSites(sites, w);
    forall k | 0 <= k < |sites| && SiteScores(w.site(sites[k]))
      ensures |cs| > 0
    {
      assert AssessSite(sites[k], w).value in cs;
    }
    var best := PickBest(cs);
    if best.None? {
      report, table' := NoSiteScored, table;
      return;
    }
    var chosen := cs[best.value];
    assert AssessSite(chosen.location, w) == Some(chosen);
    var phase := CalculateTargetsForLocation(chosen.location, chosen.conditions, inputs);
    if phase.TargetsAborted? {
      report, table' := Aborted(chosen, phase.message), table;
      return;
    }
    var record := SavedRecord(chosen, currentTime);
    report, table' := Completed(chosen, phase, record), InsertCheck(table, record);
  }

  /** As shipped only Indiana Dunes is checked, so it is the best site
      whenever it scores at all. */
  lemma OnlyIndianaDunesIsChecked(w: World)
    ensures var cs := AssessSites(EnabledLocations(AllLocations), w);
            SiteScores(w.site(IndianaDunes)) ==> |cs| == 1 && cs[0].location == IndianaDunes
    ensures |AssessSites(EnabledLocations(AllLocations), w)| <= 1
  {
    RegistryAsShipped();
  }
}

=== FILE: seqs.dfy ===
/** Order-preserving operations on sequences: Kotlin's `filter` and `take`,
    and SQL's `WHERE` and `LIMIT`. */
module Seqs {

  /** Keeps the elements satisfying `p`, in their original order. */
  function Filter<T>(s: seq<T>, p: T -> bool): (r: seq<T>)
    ensures |r| <= |s|
    ensures forall i :: 0 <= i < |r| ==> r[i] in s && p(r[i])
    ensures forall i :: 0 <= i < |s| && p(s[i]) ==> s[i] in r
    decreases |s|
  {
    if |s| == 0 then []
    else if p(s[0]) then [s[0]] + Filter(s[1..], p)
    else Filter(s[1..], p)
  }

  /** The first `n` elements, or all of them when there are fewer. */
  function Take<T>(s: seq<T>, n: nat): (r: seq<T>)
    ensures |r| == if |s| < n then |s| else n
    ensures forall i :: 0 <= i < |r| ==> r[i] == s[i]
  {
    if |s| <= n then s else s[..n]
  }

  /** Filtering distributes over concatenation, so it keeps relative order. */
  lemma {:induction false} FilterAppend<T>(a: seq<T>, b: seq<T>, p: T -> bool)
    ensures Filter(a + b, p) == Filter(a, p) + Filter(b, p)
    decreases |a|
  {
    if |a| == 0 {
      assert a + b == b;
    } else {
      assert (a + b)[1..] == a[1..] + b;
      FilterAppend(a[1..], b, p);
    }
  }

  /** Filtering twice with the same predicate changes nothing more. */
  lemma {:induction false} FilterIdempotent<T>(s: seq<T>, p: T -> bool)
    ensures Filter(Filter(s, p), p) == Filter(s, p)
    decreases |s|
  {
    if |s| > 0 {
      FilterIdempotent(s[1..], p);
      if p(s[0]) {
        assert ([s[0]] + Filter(s[1..], p))[1..] == Filter(s[1..], p);
      }
    }
  }

  /** Filtering keeps nothing when the predicate fails throughout. */
  lemma {:induction false} FilterNone<T>(s: seq<T>, p: T -> bool)
    requires forall i :: 0 <= i < |s| ==> !p(s[i])
    ensures Filter(s, p) == []
    decreases |s|
  {
    if |s| > 0 {
      FilterNone(s[1..], p);
    }
  }

  /** `rel` holds from every element to every later one. */
  predicate Pairwise<T>(s: seq<T>, rel: (T, T) -> bool) {
    forall i, j :: 0 <= i < j < |s| ==> rel(s[i], s[j])
  }

  /** A relation holding between every earlier and later element still holds
      after filtering, since filtering keeps relative order. */
  lemma {:induction false} FilterPairwise<T>(s: seq<T>, p: T -> bool, rel: (T, T) -> bool)
    requires Pairwise(s, rel)
    ensures Pairwise(Filter(s, p), rel)
    decreases |s|
  {
    if |s| > 0 {
      var tail := Filter(s[1..], p);
      FilterPairwise(s[1..], p, rel);
      if p(s[0]) {
        var r := [s[0]] + tail;
        forall i, j | 0 <= i < j < |r|
          ensures rel(r[i], r[j])
        {
          if i == 0 {
            assert r[j] == tail[j - 1] && tail[j - 1] in s[1..];
            var m :| 0 <= m < |s[1..]| && s[1..][m] == r[j];
            assert s[m + 1] == r[j] && r[0] == s[0];
            assert rel(s[0], s[m + 1]);
          } else {
            assert r[i] == tail[i - 1] && r[j] == tail[j - 1];
            assert rel(tail[i - 1], tail[j - 1]);
          }
        }
        assert Filter(s, p) == r;
      }
    }
  }
}

=== FILE: sky.dfy ===
/** The coordinate math of the visibility engine: local sidereal time, hour
    angle, altitude, hours until meridian transit and the flat peak-altitude
    approximation. */
module Sky {
  import opened Numerics
  import Clock

  /** `Math.sin(Math.toRadians(d))`, `Math.cos(Math.toRadians(d))` and
      `Math.toDegrees(Math.asin(x))`, left uninterpreted. */
  datatype TrigTable = TrigTable(sinDeg: real -> real, cosDeg: real -> real, asinDeg: real -> real)

  /** The one fact the model relies on: asin's range is [-90, 90] degrees. */
  ghost predicate AsinInRange(t: TrigTable) {
    forall x :: -90.0 <= t.asinDeg(x) <= 90.0
  }

  type Trig = t: TrigTable | AsinInRange(t) witness TrigTable(x => 0.0, x => 1.0, x => 0.0)

  /** 2000-01-01T12:00:00.000 UTC (the J2000.0 epoch) in epoch milliseconds. */
  const J2000Millis: int := 946728000000

  predicate ValidLongitude(longitude: real) {
    -180.0 <= longitude <= 180.0
  }

  predicate ValidRightAscension(ra: real) {
    0.0 <= ra <= 24.0
  }

  /** Fractional days from J2000.0 to the instant `t`. */
  function DaysSinceJ2000(t: int): (days: real)
    ensures t >= J2000Millis ==> days >= 0.0
  {
    (t - J2000Millis) as real / (1000.0 * 86400.0)
  }

  /** Local sidereal time in hours: days since J2000 are taken from the
      instant `t`, the time of day from the calendar fields `f`. */
  function LocalSiderealTime(t: int, f: Clock.ClockFields, longitude: real): (lst: real)
    ensures -24.0 < lst < 24.0
    ensures t >= J2000Millis && Clock.ValidFields(f) && ValidLongitude(longitude) ==> 0.0 <= lst < 24.0
  {
    var gmst0 := 100.46 + 0.985647 * DaysSinceJ2000(t);
    var utHours := f.hour as real + f.minute as real / 60.0 + f.second as real / 3600.0;
    var gmst := TruncRem(gmst0 + utHours * 15.0, 360.0);
    var gmstHours := gmst / 15.0;
    TruncRem(gmstHours + longitude / 15.0 + 24.0, 24.0)
  }

  /** Hour angle of a target at right ascension `ra` seen from `longitude` at
      the instant `t` of a calendar whose local offset is `zone`. */
  function HourAngle(ra: real, longitude: real, t: int, zone: int): (ha: real)
    ensures -24.0 < ha < 24.0
    ensures t >= J2000Millis && ValidLongitude(longitude) && ValidRightAscension(ra) ==> 0.0 <= ha < 24.0
  {
    var lst := LocalSiderealTime(t, Clock.Fields(t, zone), longitude);
    TruncRem(lst - ra + 24.0, 24.0)
  }

  /** Altitude in degrees of a target at declination `dec` for an observer at
      `latitude`, at hour angle `hourAngle`. */
  function AltitudeAtTime(trig: Trig, dec: real, latitude: real, hourAngle: real): (alt: real)
    ensures -90.0 <= alt <= 90.0
  {
    var sinAlt := trig.sinDeg(dec) * trig.sinDeg(latitude)
                  + trig.cosDeg(dec) * trig.cosDeg(latitude) * trig.cosDeg(hourAngle * 15.0);
    trig.asinDeg(sinAlt)
  }

  /** The hour offsets at which local sidereal time `lst` reaches `ra`. */
  function Crossing(ra: real, lst: real, k: int): real {
    ra - lst + 24.0 * k as real
  }

  /** Hours until the target crosses the meridian; a crossing less than an
      hour away is deferred to the next one. */
  function HoursUntilTransit(ra: real, lst: real): (h: real)
    ensures ValidRightAscension(ra) && 0.0 <= lst < 24.0 ==> 1.0 <= h < 25.0
  {
    var h := TruncRem(ra - lst + 24.0, 24.0);
    if h < 1.0 then h + 24.0 else h
  }

  /** Minutes added to the caller's calendar: `(hoursUntilTransit * 60).toInt()`. */
  function MinutesUntilTransit(ra: real, longitude: real, utcNow: int): (minutes: int)
    ensures utcNow >= J2000Millis && ValidLongitude(longitude) && ValidRightAscension(ra) ==>
              60 <= minutes <= 1499
  {
    var lst := LocalSiderealTime(utcNow, Clock.Fields(utcNow, 0), longitude);
    var h := HoursUntilTransit(ra, lst);
    TruncToInt(h * 60.0)
  }

  /** The transit instant reported for a target: the caller's `currentTime`
      plus the minutes until transit computed from the UTC clock reading
      `utcNow`. */
  function TransitTime(ra: real, longitude: real, utcNow: int, currentTime: int): (t: int)
    ensures utcNow >= J2000Millis && ValidLongitude(longitude) && ValidRightAscension(ra) ==>
              currentTime + 60 * Clock.MinuteMillis <= t <= currentTime + 1499 * Clock.MinuteMillis
  {
    currentTime + MinutesUntilTransit(ra, longitude, utcNow) * Clock.MinuteMillis
  }

  /** Peak altitude at transit by the flat formula `90 - |latitude - dec|`. */
  function PeakAltitude(dec: real, latitude: real): (alt: real)
    ensures alt <= 90.0
    ensures alt == 90.0 <==> dec == latitude
    ensures -90.0 <= dec <= 90.0 && -90.0 <= latitude <= 90.0 ==> -90.0 <= alt
  {
    90.0 - if latitude - dec < 0.0 then dec - latitude else latitude - dec
  }

  /** The deferred transit is the first crossing at least one hour ahead. */
  lemma TransitIsFirstCrossingAfterAnHour(ra: real, lst: real)
    requires ValidRightAscension(ra) && 0.0 <= lst < 24.0
    ensures exists k :: HoursUntilTransit(ra, lst) == Crossing(ra, lst, k)
    ensures forall k :: 1.0 <= Crossing(ra, lst, k) ==> HoursUntilTransit(ra, lst) <= Crossing(ra, lst, k)
  {
    var x := ra - lst + 24.0;
    var q := TruncToInt(x / 24.0);
    var h := TruncRem(x, 24.0);
    assert h == x - 24.0 * q as real;
    if h < 1.0 {
      assert HoursUntilTransit(ra, lst) == Crossing(ra, lst, 2 - q);
    } else {
      assert HoursUntilTransit(ra, lst) == Crossing(ra, lst, 1 - q);
    }
    forall k | 1.0 <= Crossing(ra, lst, k)
      ensures HoursUntilTransit(ra, lst) <= Crossing(ra, lst, k)
    {
      var c := Crossing(ra, lst, k);
      if h < 1.0 {
        assert c == h + 24.0 * (k + q - 1) as real;
        assert k + q - 1 >= 1;
      } else {
        assert c == h + 24.0 * (k + q - 1) as real;
        assert k + q - 1 >= 0;
      }
    }
  }

  /** Scenario: the Orion Nebula (dec +7.41) from Indiana Dunes (41.66 N)
      peaks at 55.75 degrees. */
  lemma OrionPeakFromIndianaDunes()
    ensures PeakAltitude(7.41, 41.66) == 55.75
  {
  }
}

=== FILE: text.dfy ===
/** Decimal rendering of integers, as Kotlin's string templates print an `Int`. */
module Text {

  predicate IsDigit(c: char) {
    '0' <= c <= '9'
  }

  function DigitChar(d: int): (c: char)
    requires 0 <= d < 10
    ensures IsDigit(c)
  {
    "0123456789"[d]
  }

  /** Digits of a non-negative number, most significant first, no leading zero. */
  function NatDigits(n: nat): (s: string)
    ensures |s| >= 1
    ensures forall i :: 0 <= i < |s| ==> IsDigit(s[i])
    ensures |s| > 1 ==> s[0] != '0'
    decreases n
  {
    if n < 10 then [DigitChar(n)] else NatDigits(n / 10) + [DigitChar(n % 10)]
  }

  function Decimal(n: int): (s: string)
    ensures |s| >= 1
    ensures n >= 0 ==> forall i :: 0 <= i < |s| ==> IsDigit(s[i])
    ensures n < 0 ==> s[0] == '-' && s[1..] == NatDigits(-n)
  {
    if n < 0 then "-" + NatDigits(-n) else NatDigits(n)
  }

  /** Reads back a string of decimal digits. */
  function DigitsValue(s: string): nat
    requires forall i :: 0 <= i < |s| ==> IsDigit(s[i])
    decreases |s|
  {
    if |s| == 0 then 0
    else
      assert IsDigit(s[|s| - 1]);
      DigitsValue(s[..|s| - 1]) * 10 + (s[|s| - 1] as int - '0' as int)
  }

  /** Printing a number and reading it back gives the number. */
  lemma {:induction false} NatDigitsRoundTrip(n: nat)
    ensures DigitsValue(NatDigits(n)) == n
    decreases n
  {
    if n >= 10 {
      NatDigitsRoundTrip(n / 10);
      var s := NatDigits(n);
      assert s[..|s| - 1] == NatDigits(n / 10);
    }
  }

  /** Reading a printed `Int` back gives the number, sign included. */
  lemma DecimalRoundTrip(n: int)
    ensures n >= 0 ==> DigitsValue(Decimal(n)) == n
    ensures n < 0 ==> Decimal(n)[0] == '-' && DigitsValue(Decimal(n)[1..]) == -n
  {
    if n >= 0 {
      NatDigitsRoundTrip(n);
    } else {
      NatDigitsRoundTrip(-n);
    }
  }
}

=== FILE: visibility.dfy ===
/** The night window and the hourly quality-time integration of the
    visibility scorer. */
module Visibility {
  import opened Sky
  import Clock

  /** Where the target is scored from: the chosen site and the local offset of
      the device's calendar. */
  datatype Observer = Observer(latitude: real, longitude: real, zone: int)

  /** A catalog target's equatorial coordinates (hours, degrees). */
  datatype Position = Position(ra: real, dec: real)

  /** The observing session for tonight and the instant scoring starts from. */
  datatype NightWindow = NightWindow(start: int, end: int, effectiveStart: int)

  /** The session runs from today's `sunsetHour`:00 to `sunriseHour`:00, the
      end moved to the next day when it would fall before the start; only the
      hour and minute of `now` are changed, so its seconds and milliseconds
      carry over. Scoring starts at `now` once the session is under way. */
  function ResolveNightWindow(now: int, zone: int, sunsetHour: int, sunriseHour: int): (w: NightWindow)
    requires 0 <= sunsetHour < 24 && 0 <= sunriseHour < 24
    ensures w.start == Clock.AtHour(now, zone, sunsetHour)
    ensures w.end == Clock.AtHour(now, zone, sunriseHour) + Clock.DayMillis <==> sunriseHour < sunsetHour
    ensures w.end == Clock.AtHour(now, zone, sunriseHour) <==> sunriseHour >= sunsetHour
    ensures w.start <= w.end && (w.start == w.end <==> sunriseHour == sunsetHour)
    ensures w.end - w.start == ((sunriseHour - sunsetHour) % 24) * Clock.HourMillis
    ensures w.effectiveStart >= now && w.effectiveStart >= w.start
    ensures w.effectiveStart == now || w.effectiveStart == w.start
  {
    var start := Clock.AtHour(now, zone, sunsetHour);
    var sameDayEnd := Clock.AtHour(now, zone, sunriseHour);
    var end := if sameDayEnd < start then sameDayEnd + Clock.DayMillis else sameDayEnd;
    NightWindow(start, end, if now > start then now else start)
  }

  /** Quality contributed by one hourly step at altitude `alt` (degrees). */
  function Band(alt: real): (q: real)
    ensures 0.0 <= q <= 1.0
    ensures q == 0.0 <==> alt < 25.0
    ensures q == 1.0 <==> alt >= 60.0
  {
    if alt < 25.0 then 0.0
    else if alt >= 60.0 then 1.0
    else if alt >= 45.0 then 0.8
    else if alt >= 30.0 then 0.5
    else 0.1
  }

  /** A higher step never earns less. */
  lemma BandMonotone(alt1: real, alt2: real)
    requires alt1 <= alt2
    ensures Band(alt1) <= Band(alt2)
  {
  }

  /** Altitude of the target at one evaluation instant. */
  function StepAltitude(trig: Trig, obs: Observer, pos: Position, t: int): real {
    AltitudeAtTime(trig, pos.dec, obs.latitude, HourAngle(pos.ra, obs.longitude, t, obs.zone))
  }

  /** The `k`-th evaluation instant after `t`. */
  function StepTime(t: int, k: int): int {
    t + k * Clock.HourMillis
  }

  /** Number of hourly evaluation instants `t, t + 1h, ...` before `end`. */
  function Steps(t: int, end: int): nat
    decreases end - t
  {
    if t < end then 1 + Steps(t + Clock.HourMillis, end) else 0
  }

  /** Quality hours accumulated from `t` (inclusive) to `end` (exclusive) in
      hourly steps. */
  function QualityHours(trig: Trig, obs: Observer, pos: Position, t: int, end: int): (q: real)
    ensures 0.0 <= q <= Steps(t, end) as real
    ensures t >= end ==> q == 0.0
    decreases end - t
  {
    if t < end then
      Band(StepAltitude(trig, obs, pos, t)) + QualityHours(trig, obs, pos, t + Clock.HourMillis, end)
    else 0.0
  }

  /** Peeling off the first step of a non-empty window. */
  lemma QualityHoursFirstStep(trig: Trig, obs: Observer, pos: Position, t: int, end: int)
    requires t < end
    ensures QualityHours(trig, obs, pos, t, end)
            == Band(StepAltitude(trig, obs, pos, t)) + QualityHours(trig, obs, pos, t + Clock.HourMillis, end)
  {
  }

  /** The band ladder of one loop iteration, as the loop writes it. */
  method StepGain(altitude: real) returns (gain: real)
    ensures gain == Band(altitude)
  {
    if altitude < 25.0 {
      gain := 0.0;
    } else if altitude >= 60.0 {
      gain := 1.0;
    } else if altitude >= 45.0 {
      gain := 0.8;
    } else if altitude >= 30.0 {
      gain := 0.5;
    } else {
      gain := 0.1;
    }
  }

  /** The accumulation loop as written: step an hour at a time while the test
      time is before the session end. */
  method ScoreWindow(trig: Trig, obs: Observer, pos: Position, start: int, end: int) returns (q: real)
    ensures q == QualityHours(trig, obs, pos, start, end)
  {
    q := 0.0;
    var testTime := start;
    while testTime < end
      invariant q + QualityHours(trig, obs, pos, testTime, end) == QualityHours(trig, obs, pos, start, end)
      decreases end - testTime
    {
      var gain := StepGain(StepAltitude(trig, obs, pos, testTime));
      QualityHoursFirstStep(trig, obs, pos, testTime, end);
      q := q + gain;
      testTime := testTime + Clock.HourMillis;
    }
  }

  /** The number of steps is the window length in hours, rounded up. */
  lemma {:induction false} StepsCount(t: int, end: int)
    ensures Steps(t, end) == if t < end then (end - t + Clock.HourMillis - 1) / Clock.HourMillis else 0
    decreases end - t
  {
    if t < end {
      StepsCount(t + Clock.HourMillis, end);
      var n := end - t + Clock.HourMillis - 1;
      if t + Clock.HourMillis < end {
        assert (n - Clock.HourMillis) / Clock.HourMillis == n / Clock.HourMillis - 1;
      } else {
        assert n / Clock.HourMillis == 1;
      }
    }
  }

  /** Pushing the session end later never lowers the quality hours. */
  lemma {:induction false} QualityHoursMonotone(trig: Trig, obs: Observer, pos: Position, t: int, end1: int, end2: int)
    requires end1 <= end2
    ensures QualityHours(trig, obs, pos, t, end1) <= QualityHours(trig, obs, pos, t, end2)
    decreases end2 - t
  {
    if t < end1 {
      QualityHoursMonotone(trig, obs, pos, t + Clock.HourMillis, end1, end2);
    }
  }

  /** A target that never reaches 25 degrees at any step scores nothing. */
  lemma {:induction false} NeverObservableScoresZero(trig: Trig, obs: Observer, pos: Position, t: int, end: int)
    requires forall k :: 0 <= k < Steps(t, end) ==> StepAltitude(trig, obs, pos, StepTime(t, k)) < 25.0
    ensures QualityHours(trig, obs, pos, t, end) == 0.0
    decreases end - t
  {
    if t < end {
      assert StepTime(t, 0) == t;
      var next := t + Clock.HourMillis;
      forall k | 0 <= k < Steps(next, end)
        ensures StepAltitude(trig, obs, pos, StepTime(next, k)) < 25.0
      {
        assert StepTime(next, k) == StepTime(t, k + 1);
      }
      NeverObservableScoresZero(trig, obs, pos, next, end);
    }
  }

  /** Every step at 60 degrees or more earns the full hour, so the score
      reaches the number of steps. */
  lemma {:induction false} AlwaysHighScoresEveryStep(trig: Trig, obs: Observer, pos: Position, t: int, end: int)
    requires forall k :: 0 <= k < Steps(t, end) ==> StepAltitude(trig, obs, pos, StepTime(t, k)) >= 60.0
    ensures QualityHours(trig, obs, pos, t, end) == Steps(t, end) as real
    decreases end - t
  {
    if t < end {
      assert StepTime(t, 0) == t;
      var next := t + Clock.HourMillis;
      forall k | 0 <= k < Steps(next, end)
        ensures StepAltitude(trig, obs, pos, StepTime(next, k)) >= 60.0
      {
        assert StepTime(next, k) == StepTime(t, k + 1);
      }
      AlwaysHighScoresEveryStep(trig, obs, pos, next, end);
    }
  }
}

=== FILE: wrappers.dfy ===
/** Optional values, the model's stand-in for Kotlin's nullable types (`T?`),
    and success-or-failure results. */
module Wrappers {

  datatype Option<+T> = None | Some(value: T) {

    /** Kotlin's elvis operator `x ?: default`. */
    function GetOr(default: T): T {
      match this
      case Some(v) => v
      case None => default
    }
  }

  /** A computation that either produced a value or failed with an error,
      as Kotlin's `try`/`catch` and `Result` do. */
  datatype Result<+R, +E> = Success(value: R) | Failure(error: E)
}
